=== FILE: README.md ===
# Maze Race generation and the item pool, in Dafny

This project models two pieces of the "chance game" collection of browser mini-games.

1. **Maze generation for Maze Race Rally** (`src/scenes/MazeRaceScene.js`).
   - A fully walled grid is built.
   - A randomized depth-first backtracker carves a spanning tree into it.
   - A loosening pass opens extra right and bottom walls.
   - A bounded search counts distinct simple paths from the entrance `(0, 0)` to the exit in the opposite corner.
   - A repair loop knocks out random walls in batches until enough paths exist or its attempt budget runs out.
   - The round's grid size comes from the pixel size of the maze area, with a minimum of 7 x 6 cells.
2. **The item pool** (`src/utils/store.js`). This is the list of names the games draw from.
   - It is loaded from a stored blob, or falls back to nine countries.
   - It can be replaced from comma- or line-separated text.
   - It can optionally be consumed, one choice at a time.
   - It refills from its refill list whenever it runs dry.

Modules:

| file | module | contents |
|---|---|---|
| `maze_grid.dfy` | `MazeGrid` | cells, walls and grids; opening a boundary on both sides; open neighbours; paths and connectivity; open boundaries counted once each |
| `maze_carve.dfy` | `MazeCarve` | the depth-first carve, with its invariant and spanning-tree proof, and the loosening pass |
| `maze_paths.dfy` | `MazePaths` | the path-counting search, as mutually recursive functions that thread the path and call counters |
| `maze_repair.dfy` | `MazeRepair` | path-diversity repair, the grid-size clamp, and the whole set-up of a round |
| `text.dfy` | `Text` | JavaScript `trim`, splitting on `/[,\n]/`, and `join` |
| `store.dfy` | `ItemStore` | JavaScript values as far as the store reads them, normalization, loading, parsing, and the state transitions |

Randomness is modelled as oracle parameters:
- `pick(k)` is the k-th uniform choice from a list (`GetRandom`), taken modulo the list's length.
- `coin(k)` is the k-th outcome of the test `FloatBetween(0, 1) < 0.12`.
- `rnd(k)` is the k-th integer draw of repair (`Between` and `GetRandom`), reduced modulo the size of the range it draws from.
- `GetNextItem` takes its index as a parameter.

The proved contracts therefore hold for every possible sequence of random outcomes.

The grid is a value (`seq<seq<Cell>>`), and every operation returns a new grid. The game mutates one array in place. Nothing else holds a reference to that array while these functions run, so the two are equivalent.

## Model

| member | source | states |
|---|---|---|
| MazeGrid.CreateGrid | src/scenes/MazeRaceScene.js:17-37 | `rows` rows of `cols` cells; the cell at `grid[y][x]` has coordinates `(x, y)`; every wall is up and nothing is visited, so the grid is sound (neighbours agree, perimeter closed) |
| MazeGrid.OpenWall | src/scenes/MazeRaceScene.js:71-72 | opening a boundary clears exactly its two copies (side `d` of `p` and the opposite side of the neighbour); every other wall and every visited mark is unchanged |
| MazeGrid.ClearWall | src/scenes/MazeRaceScene.js:71 | a single wall assignment changes that one wall and nothing else |
| MazeGrid.OpenWallKeepsSound | src/scenes/MazeRaceScene.js:71-72 | because both copies open together and the neighbour is inside the grid, adjacent cells keep agreeing and the perimeter stays closed |
| MazeGrid.OpenWallKeepsConsistent | src/scenes/MazeRaceScene.js:82-83 | opening both copies of a boundary keeps every pair of neighbours in agreement |
| MazeGrid.OpenWallKeepsPerimeter | src/scenes/MazeRaceScene.js:187-188 | opening a boundary towards an in-bounds neighbour never opens an outer wall |
| MazeGrid.OpenWallOnlyOpens | src/scenes/MazeRaceScene.js:86-87 | an opening never closes a wall and keeps the shape and coordinates |
| MazeGrid.OpenWallWidens | src/scenes/MazeRaceScene.js:39-191 | a grid grown from another by openings stays widened (same shape and visits, nothing closed, still sound) after one more opening |
| MazeGrid.OpenWallAddsEdge | src/scenes/MazeRaceScene.js:71-72 | opening a closed boundary adds exactly one open boundary to the set of open boundaries |
| MazeGrid.OpenWallEdgesAtMostOne | src/scenes/MazeRaceScene.js:187-188 | opening any boundary, closed or already open, adds at most the one boundary it names |
| MazeGrid.OpenNeighbors | src/scenes/MazeRaceScene.js:93-111 | a step in direction `d` is listed exactly when the neighbour is inside the grid and the wall on the cell's own side is open; nothing else is listed |
| MazeGrid.OpenNeighborsOrdered | src/scenes/MazeRaceScene.js:98-109 | the neighbours come in top, right, bottom, left order, each at most once |
| MazeGrid.OpenNeighborsSymmetric | src/scenes/MazeRaceScene.js:93-111 | in a consistent grid, `q` is an open neighbour of `p` exactly when `p` is one of `q` |
| MazeGrid.OpenNeighborsGrow | src/scenes/MazeRaceScene.js:93-111 | opening walls never removes an open neighbour |
| MazeGrid.ConnectedPersists | src/scenes/MazeRaceScene.js:77-90 | when every cell is reachable from the entrance, that stays true after more walls are opened |
| MazeGrid.AllPosSize | src/scenes/MazeRaceScene.js:17-37 | a `rows` x `cols` grid has `rows * cols` cells |
| MazeCarve.UnvisitedDirs | src/scenes/MazeRaceScene.js:56-62 | a direction is a candidate exactly when it leads to an in-bounds cell not yet visited |
| MazeCarve.UnvisitedDirsOrdered | src/scenes/MazeRaceScene.js:47-62 | the candidates keep the top, right, bottom, left order of the direction table, each at most once |
| MazeCarve.CarvePop | src/scenes/MazeRaceScene.js:64-67 | popping a cell with no unvisited neighbour leaves every reached cell off the stack with all its neighbours reached |
| MazeCarve.CarvePushGrown | src/scenes/MazeRaceScene.js:69-74 | a push reaches a new in-bounds cell; the grid stays sound; the new cell gets a route from the entrance; there is one more open boundary and one more reached cell |
| MazeCarve.CarveDone | src/scenes/MazeRaceScene.js:54-75 | once the stack is empty, every cell is visited and reachable from the entrance, and exactly `rows * cols - 1` boundaries are open |
| MazeCarve.CarveTree | src/scenes/MazeRaceScene.js:39-75 | the carve terminates and yields a spanning tree: sound, all visited, connected, `rows * cols - 1` open boundaries |
| MazeCarve.LoosenSide | src/scenes/MazeRaceScene.js:81-88 | an interior wall that stands draws one coin; on heads the result is exactly that wall opened together with the neighbour's matching wall, on tails nothing changes; a border wall or an open wall draws nothing; no other wall changes |
| MazeCarve.LoosenCell | src/scenes/MazeRaceScene.js:80-88 | one cell tests its right wall before its bottom wall: the row's coin count and the "each tested wall is open exactly on its own coin" invariant move on by one cell, and with all tails nothing changes |
| MazeCarve.LoosenRow | src/scenes/MazeRaceScene.js:79-89 | one row draws exactly `RowDraws` coins, one per standing interior right or bottom wall, left to right and right before bottom; each such wall ends open exactly when its own coin (number `draws + SideDraw`) is heads; every other right or bottom wall is unchanged; the grid stays widened; all heads opens every interior right and bottom wall of the row, all tails changes nothing |
| MazeCarve.Loosen | src/scenes/MazeRaceScene.js:77-90 | every interior right or bottom wall standing in the input is open in the result exactly when coin number `WallDraw` is heads, the coins being numbered in row-major order with a cell's right wall before its bottom wall; every other right or bottom wall is as in the input; walls are only opened and a sound grid stays sound, so the left and top copies follow; all heads opens every interior boundary, all tails leaves the grid as it was |
| MazeCarve.AllHeadsOpens | src/scenes/MazeRaceScene.js:81-87 | from the per-coin contract alone: when every coin is heads, every interior right and bottom wall ends open, whether it stood before or not |
| MazeCarve.CarveMaze | src/scenes/MazeRaceScene.js:39-91 | the carved and loosened maze is sound, fully visited, connected, and has at least `rows * cols - 1` open boundaries |
| MazePaths.Walk | src/scenes/MazeRaceScene.js:119-138 | each call counts at least one operation. Beyond its own, it adds at most four per exploring call it uses from the 1000-call budget, because a cell has at most four neighbours and a call past the budget returns at once. The path count never falls and never rises above the limit |
| MazePaths.WalkAll | src/scenes/MazeRaceScene.js:131-136 | the loop over the neighbours adds at most one call per remaining neighbour plus four per exploring call it uses from the budget, and keeps the path-count bounds |
| MazePaths.SearchCalls | src/scenes/MazeRaceScene.js:116-121 | a whole search makes at most `1 + 4 * 1000` calls: the budget stops exploring, not calling |
| MazePaths.CountDistinctPaths | src/scenes/MazeRaceScene.js:113-142 | the count is in `[0, limit]`; it is 1 when start is the goal and `limit >= 1`; a count of `n` means at least `n` distinct simple paths of at most `maxDepth + 1` cells really lead from start to goal |
| MazePaths.Prepend | src/scenes/MazeRaceScene.js:128-136 | a step onto a counted path that avoids the current cell gives a counted path one cell longer |
| MazePaths.WalkFinds | src/scenes/MazeRaceScene.js:119-138 | a call that raises the count by `k` has found `k` distinct simple paths from its cell to the goal, each avoiding the cells on the current path and fitting the remaining depth |
| MazePaths.WalkAllFinds | src/scenes/MazeRaceScene.js:131-136 | the neighbour loop's paths are those of the neighbours it walks into; each starts at one of the remaining neighbours, and since the neighbours are distinct no path is counted twice |
| MazePaths.PrependWitnesses | src/scenes/MazeRaceScene.js:128-136 | putting the current cell in front of the neighbours' distinct paths gives as many distinct paths from the cell |
| MazePaths.PrependAll | src/scenes/MazeRaceScene.js:128-136 | putting one cell in front of each of a set of paths loses none of them: the new set is as large as the old |
| MazePaths.SearchFinds | src/scenes/MazeRaceScene.js:140-141 | a search from the entrance that counts `n` paths has found `n` distinct real simple paths, and so at least one when `n > 0` |
| MazeRepair.ClosedInteriorDirs | src/scenes/MazeRaceScene.js:175-182 | a direction is an option exactly when its neighbour is inside the grid and the wall towards it stands |
| MazeRepair.ClosedInteriorDirsOrdered | src/scenes/MazeRaceScene.js:149-154 | the options keep the order of the direction table |
| MazeRepair.ModIsRemainder | src/scenes/MazeRaceScene.js:175 | the reduction of a draw by repeated subtraction is the remainder of the division |
| MazeRepair.AttemptOpens | src/scenes/MazeRaceScene.js:175-188 | an attempt draws the row, then the column. If that cell has no standing wall towards an in-bounds neighbour, it changes nothing and uses two draws. Otherwise the third draw picks one of those walls in table order; that wall stood before and is open after, and in a consistent grid exactly one open boundary is added |
| MazeRepair.RemovalAttempt | src/scenes/MazeRaceScene.js:173-188 | the attempt yields exactly the grid and draw counter `Attempt` describes; it only opens walls, keeps the grid sound and opens at most one boundary |
| MazeRepair.ChainAttempts | src/scenes/MazeRaceScene.js:172-189 | in a run of attempts, the trial after `j` steps is what `Attempts` gives for `j` attempts from the first trial |
| MazeRepair.EnsureMultiplePaths | src/scenes/MazeRaceScene.js:144-191 | repair terminates after at most `min(rows*cols*2, 50)` attempts. The ghost run `trials` holds every attempt in order, from the input with nothing drawn, each one `Attempt` applied to the one before; the result is the grid after the last attempt. The ghost list `counted` holds the grid at every path count: the `i`-th is the grid after `10 * i` attempts, so it is the input at first and one batch apart after that. Every count but the last found fewer than `minPaths` paths, so repair stops at the first count that reaches `minPaths`, and then the result is that grid. Otherwise the budget is spent after a last count that was still short. A maze with enough paths is returned untouched; at most one new boundary opens per attempt; the grid stays sound and connectivity is kept |
| MazeRepair.RemovalBatch | src/scenes/MazeRaceScene.js:172-189 | one batch makes 10 attempts or stops at the budget, whichever comes first. Its ghost `steps` is the run of trials from the input grid and draw counter to the result, one `Attempt` apart. It only opens walls, keeps the grid sound and opens at most one boundary per attempt |
| MazeRepair.StoppedFacts | src/scenes/MazeRaceScene.js:160-169 | when repair stops, either the last count reached `minPaths` or the budget is spent, and an input with enough paths was never changed |
| MazeRepair.MazeDimensions | src/scenes/MazeRaceScene.js:216-220 | at least 7 columns and 6 rows; above the minimum, exactly as many 40-pixel cells as fit in the area |
| MazeRepair.BuildMaze | src/scenes/MazeRaceScene.js:216-231 | a round's maze has the clamped size and is sound and connected |
| Text.Trim | src/utils/store.js:68 | the result has no whitespace at either end and is no longer than the input |
| Text.TrimStrips | src/utils/store.js:68 | the result is a contiguous slice of the input, and everything cut away on either side is whitespace |
| Text.TrimIdempotent | src/utils/store.js:21 | trimming twice is trimming once |
| Text.TrimEmpty | src/utils/store.js:21 | a string trims to empty exactly when it is all whitespace |
| Text.Split | src/utils/store.js:67 | there is one more piece than there are separators, and no piece holds a separator |
| Text.SplitJoin | src/utils/store.js:67 | splitting undoes joining when no piece holds a separator |
| Text.SplitRejoin | src/utils/store.js:67 | the pieces put back together with the separators they were split at rebuild the text |
| ItemStore.Field | src/utils/store.js:41-42 | for the two names the store reads, `items` and `originalItems`, `?.` gives the property's value on an object that has it, and `undefined` in every other case: an object without that property, or anything but an object (no string, number, boolean or array has a property of either name) |
| ItemStore.Coalesce | src/utils/store.js:41-42 | `??` gives its right side exactly when the left side is `null` or `undefined` |
| ItemStore.Truthy | src/utils/store.js:93 | `Boolean(v)` is false for `null` and `undefined`, is the flag of a boolean and is true for arrays and objects; a string is truthy exactly when it is non-empty |
| ItemStore.Clean | src/utils/store.js:21 | every kept entry is non-empty and trimmed and is the trim of some input entry; the list does not grow |
| ItemStore.CleanKeepsOrder | src/utils/store.js:21 | the kept entries are the trimmed entries in their original order, some left out |
| ItemStore.CleanCount | src/utils/store.js:21 | exactly as many entries are kept as do not trim to the empty string |
| ItemStore.CleanCleans | src/utils/store.js:21 | the result is in order, one item per entry that does not trim to nothing, each of those present |
| ItemStore.CleanedUnique | src/utils/store.js:21 | those facts determine the result: any clean list taken in order from the trimmed entries with one item per non-blank entry is the cleaned list |
| ItemStore.SubsequenceBound | src/utils/store.js:21 | a clean list taken in order from the trimmed entries has at most one item per non-blank entry |
| ItemStore.CleanKeeps | src/utils/store.js:21 | every entry that does not trim to nothing is kept, trimmed |
| ItemStore.CleanNormal | src/utils/store.js:21 | cleaning a clean list changes nothing |
| ItemStore.CleanIdempotent | src/utils/store.js:21 | cleaning twice is cleaning once |
| ItemStore.NormalizeItems | src/utils/store.js:17-22 | a non-array gives `[]`; an array gives its elements as strings, trimmed, in order, one item for each that does not trim to nothing (the characterisation `CleanedUnique` shows unique) |
| ItemStore.NormalizeNormal | src/utils/store.js:17-22 | normalizing an array of clean strings gives them back unchanged |
| ItemStore.NormalizeIdempotent | src/utils/store.js:17-22 | normalizing a normalized list changes nothing |
| ItemStore.FallbackNormal | src/utils/store.js:1-11 | the fallback list holds nine clean items |
| ItemStore.LoadStored | src/utils/store.js:40-49 | nothing is loaded exactly when both normalized lists are empty; otherwise the pool is the stored `items` (or the bare stored list), and the refill list is the normalized `originalItems` when that is non-empty and the pool in every other case (missing, not an array, or nothing left after normalizing), so it is never empty |
| ItemStore.LoadBareList | src/utils/store.js:41-42 | a stored bare list loads as both the pool and the refill list |
| ItemStore.InitialState | src/utils/store.js:54-60 | the loaded lists when something was loaded, else the fallback list for both; removal off, next game `random`, shader `none` |
| ItemStore.InitialValid | src/utils/store.js:32-60 | whatever blob is stored, the store starts with a non-empty refill list and clean items |
| ItemStore.ParseItems | src/utils/store.js:62-70 | empty text gives `[]`; otherwise the items are the pieces between commas and line feeds, trimmed, in order, one for each piece that does not trim to nothing; none holds a separator |
| ItemStore.ParseExample | src/utils/store.js:66-69 | `" a ,,b"` parses to `["a", "b"]` |
| ItemStore.ExampleSplit | src/utils/store.js:67 | `" a ,,b"` splits into `" a "`, `""` and `"b"` |
| ItemStore.ExampleClean | src/utils/store.js:68-69 | `" a "`, `""`, `"b"` trim and filter to `"a"`, `"b"` |
| ItemStore.ParseJoin | src/utils/store.js:62-70 | parsing clean items joined by line feeds gives them back |
| ItemStore.ParseIdempotent | src/utils/store.js:62-70 | re-parsing a parsed list, joined by line feeds, gives the same list |
| ItemStore.SetItemsFromText | src/utils/store.js:85-90 | the pool is the parsed list, or the fallback list when the parse is empty; the refill list equals the pool and is never empty; the other fields are unchanged |
| ItemStore.SetRemoveOnSelect | src/utils/store.js:92-94 | the flag becomes the truth value of `value`, and nothing else changes |
| ItemStore.SetNextGame | src/utils/store.js:96-98 | only the next-game choice changes |
| ItemStore.SetShader | src/utils/store.js:100-102 | only the shader choice changes |
| ItemStore.ResetItemsIfEmpty | src/utils/store.js:104-109 | a non-empty pool is left alone; an empty one is replaced by the refill list; a valid state ends with a non-empty pool |
| ItemStore.Remove | src/utils/store.js:115 | every occurrence of the choice is gone, every other item keeps its count, and nothing new appears |
| ItemStore.RemoveKeepsOrder | src/utils/store.js:115 | the items that remain keep their order |
| ItemStore.RemoveKeepsNormal | src/utils/store.js:115 | removal keeps a clean list clean |
| ItemStore.ConsumeItem | src/utils/store.js:111-119 | the choice is returned; with removal off nothing changes; with removal on, the pool loses every copy of the choice and is refilled from the refill list if it became empty; validity is kept and the pool is never left empty |
| ItemStore.GetItems | src/utils/store.js:127-130 | the returned list is the pool after the refill; a non-empty pool is returned as is; from a valid state it is never empty |
| ItemStore.GetNextItem | src/utils/store.js:121-125 | an item is chosen exactly when the refilled pool is non-empty, and the state is then what consuming that item from the refilled state gives. From a valid state it always yields an item of the refilled pool and stays valid; with removal off, only the refill happens |
| ItemStore.ApplyValid | src/utils/store.js:85-130 | every store operation keeps the state valid |
| ItemStore.RunValid | src/utils/store.js:85-130 | any sequence of store operations keeps the state valid |
| ItemStore.GetItemsNeverEmpty | src/utils/store.js:127-130 | whatever was stored and whatever operations followed, `getItems` never returns an empty list |

## Left out

- Everything in `MazeRaceScene.js` after the module-level functions, except the grid-size clamp. This includes drawing, the legend, creature spawning and movement, tweens and timers. It is rendering and engine scheduling.
- The pixel cell size and the maze origin (`src/scenes/MazeRaceScene.js:221-227`). These are floating-point layout and affect nothing in the maze.
- Probabilities. Every random call is an oracle parameter, so the contracts hold for every outcome, and the 12% chance of the loosening pass appears only as the meaning of the `coin` oracle.
- `localStorage`, `JSON.parse` and `persistItems`. The parsed blob is a `Value` parameter of `LoadStored`. A blob that is missing, or storage that is unavailable, corresponds to passing `None` to `InitialState`. A blob that fails to parse is `Null`. Writing the pool back to storage has no effect on the state, so it is not modelled.
- `getState`. It only copies the state with the pool from `getItems`, which is modelled.
- The text form of numbers, where `String(v)` is applied to a number. A `Num` value carries its text.
- MazePaths.CountDistinctPaths: the model does not state that the count equals the number of distinct simple paths, only that it is at most that number. The 1000-call budget and the path limit cut the search short, so the count can be lower than the number of paths.
- MazeRepair.EnsureMultiplePaths: the model does not claim that the path count grows from one round to the next. Opening walls never removes or lengthens a simple path, so the paths within the depth bound only grow. Only the 1000-call budget of the search can make the count drop, because a wider maze offers more branches to spend it on.
- MazeRepair.EnsureMultiplePaths: the counter of path counts without a removal round is reset by every round that continues. Its cap of 5 can therefore never stop the loop. The model keeps the test as written, and its loop invariant shows the counter is zero whenever it is tested.
- MazeCarve.CarveTree: the carve is stated only for a freshly built grid (all walls up, nothing visited). That is the only grid the game passes to it.
- Strings are sequences of Unicode scalar values, not JavaScript's UTF-16 code units. A stored item that holds a lone surrogate cannot be represented. Every character the store's trimming and splitting look at lies in the Basic Multilingual Plane, where the two agree.
- ItemStore.GetNextItem: the index is a parameter reduced modulo the pool size, not `Math.floor(Math.random() * length)`.

=== FILE: maze_carve.dfy ===
/**
 * Maze generation: a randomized depth-first backtracker carves a spanning
 * tree out of a fully walled grid, then a loosening pass knocks out extra
 * right and bottom walls so that the maze has loops.
 *
 * Randomness is injected. `pick(k)` is the k-th integer drawn by the game's
 * uniform pick from a list (taken modulo the list's length) and `coin(k)` is
 * the outcome of the k-th test "uniform float in [0, 1) < 0.12".
 */
module MazeCarve {
  import opened MazeGrid

  function FreshToward(g: Grid, p: Pos, d: Dir): (r: seq<Dir>)
    requires WellFormed(g) && InBounds(g, p)
    ensures r == [] || r == [d]
    ensures d in r <==> InBounds(g, Step(p, d)) && !At(g, Step(p, d)).visited
  {
    if InBounds(g, Step(p, d)) && !At(g, Step(p, d)).visited then [d] else []
  }

  /** The directions from `p` towards in-bounds cells not yet visited, top, right, bottom, left. */
  function UnvisitedDirs(g: Grid, p: Pos): (r: seq<Dir>)
    requires WellFormed(g) && InBounds(g, p)
    ensures forall d :: d in r <==> InBounds(g, Step(p, d)) && !At(g, Step(p, d)).visited
  {
    FreshToward(g, p, Top) + FreshToward(g, p, Right) + FreshToward(g, p, Bottom) + FreshToward(g, p, Left)
  }

  /** The candidates come in the top, right, bottom, left order, each at most once. */
  lemma UnvisitedDirsOrdered(g: Grid, p: Pos)
    requires WellFormed(g) && InBounds(g, p)
    ensures DirSorted(UnvisitedDirs(g, p))
  {
    DirsInTurn(FreshToward(g, p, Top), FreshToward(g, p, Right), FreshToward(g, p, Bottom), FreshToward(g, p, Left));
  }

  /**
   * A set of cells that contains the entrance and is closed under moving to
   * any in-bounds neighbour contains every cell.
   */
  lemma {:induction false} ClosedSetContains(cols: int, rows: int, seen: set<Pos>, p: Pos)
    requires Start in seen
    requires forall q, d | q in seen && Step(q, d) in AllPos(cols, rows) :: Step(q, d) in seen
    requires p in AllPos(cols, rows)
    ensures p in seen
    decreases p.x + p.y
  {
    if p == Start {
    } else if p.x > 0 {
      var q := Step(p, Left);
      ClosedSetContains(cols, rows, seen, q);
      assert Step(q, Right) == p;
    } else {
      var q := Step(p, Top);
      ClosedSetContains(cols, rows, seen, q);
      assert Step(q, Bottom) == p;
    }
  }

  // ---------------------------------------------------------------------
  // The state of the depth-first carve between two iterations
  // ---------------------------------------------------------------------

  /** A cell is visited exactly when it has been reached. */
  ghost predicate VisitedIsSeen(g: Grid, seen: set<Pos>)
    requires WellFormed(g)
  {
    forall p | InBounds(g, p) :: At(g, p).visited <==> p in seen
  }

  /** Cells not reached yet are still fully walled. */
  ghost predicate UnseenClosed(g: Grid, seen: set<Pos>)
    requires WellFormed(g)
  {
    forall p, d | InBounds(g, p) && p !in seen :: WallAt(g, p, d)
  }

  /** A reached cell that has left the stack has no unreached neighbour. */
  ghost predicate Finished(g: Grid, stack: seq<Pos>, seen: set<Pos>)
    requires WellFormed(g)
  {
    forall p, d | p in seen && p !in stack && InBounds(g, Step(p, d)) :: Step(p, d) in seen
  }

  /** Every reached cell has a recorded route from the entrance. */
  ghost predicate Routes(g: Grid, seen: set<Pos>, route: map<Pos, seq<Pos>>)
    requires WellFormed(g)
  {
    forall p | p in seen ::
      p in route && IsPath(g, route[p]) && route[p][0] == Start && route[p][|route[p]| - 1] == p
  }

  /** What the carve has built so far, independent of the stack. */
  ghost predicate Grown(g0: Grid, g: Grid, seen: set<Pos>, route: map<Pos, seq<Pos>>) {
    && WellFormed(g0) && WellFormed(g) && SameShape(g0, g)
    && Consistent(g) && PerimeterClosed(g)
    && seen <= AllPos(Cols(g), |g|) && Start in seen
    && VisitedIsSeen(g, seen)
    && UnseenClosed(g, seen)
    && Routes(g, seen, route)
    && |OpenEdges(g)| + 1 == |seen|
  }

  /** The stack holds reached cells, and every reached cell off the stack is finished. */
  ghost predicate StackOk(g: Grid, stack: seq<Pos>, seen: set<Pos>)
    requires WellFormed(g)
  {
    && (forall i | 0 <= i < |stack| :: stack[i] in seen)
    && Finished(g, stack, seen)
  }

  ghost predicate CarveInv(g0: Grid, g: Grid, stack: seq<Pos>, seen: set<Pos>, route: map<Pos, seq<Pos>>) {
    Grown(g0, g, seen, route) && StackOk(g, stack, seen)
  }

  lemma CarveStart(g0: Grid)
    requires Pristine(g0)
    ensures CarveInv(g0, SetVisited(g0, Start), [Start], {Start}, map[Start := [Start]])
  {
    var g := SetVisited(g0, Start);
    SameWallsSameEdges(g0, g);
    assert OpenEdges(g0) == {};
    assert IsPath(g, [Start]);
  }

  /** Backtracking off a cell with no unvisited neighbour keeps the invariant. */
  lemma CarvePop(g: Grid, stack: seq<Pos>, seen: set<Pos>)
    requires WellFormed(g) && StackOk(g, stack, seen) && |stack| > 0
    requires InBounds(g, stack[|stack| - 1])
    requires VisitedIsSeen(g, seen)
    requires UnvisitedDirs(g, stack[|stack| - 1]) == []
    ensures StackOk(g, stack[..|stack| - 1], seen)
  {
    var current := stack[|stack| - 1];
    var rest := stack[..|stack| - 1];
    forall p, d | p in seen && p !in rest && InBounds(g, Step(p, d))
      ensures Step(p, d) in seen
    {
      if p == current {
        assert d !in UnvisitedDirs(g, current);
      }
    }
  }

  /** The routes recorded so far survive opening a wall and marking a cell. */
  lemma RoutesPersist(g: Grid, h: Grid, seen: set<Pos>, route: map<Pos, seq<Pos>>)
    requires WellFormed(g) && WellFormed(h) && OnlyOpened(g, h)
    requires Routes(g, seen, route)
    ensures Routes(h, seen, route)
  {
    forall p | p in seen
      ensures IsPath(h, route[p])
    {
      PathPersists(g, h, route[p]);
    }
  }

  /** Extending the route of `current` by an open neighbour reached in a grid with more walls open. */
  lemma RouteExtends(g: Grid, h: Grid, seen: set<Pos>, route: map<Pos, seq<Pos>>, current: Pos, next: Pos)
    requires WellFormed(g) && WellFormed(h) && OnlyOpened(g, h)
    requires Routes(g, seen, route) && current in seen
    requires InBounds(h, next) && next in OpenNeighbors(h, current)
    ensures Routes(h, seen + {next}, route[next := route[current] + [next]])
  {
    RoutesPersist(g, h, seen, route);
    PathSnoc(h, route[current], next);
    RoutesAdd(h, seen, route, next, route[current] + [next]);
  }

  /** The push records a route for the new cell: the route of `current`, one step longer. */
  lemma PushExtendsRoutes(g: Grid, seen: set<Pos>, route: map<Pos, seq<Pos>>, current: Pos, d: Dir)
    requires WellFormed(g) && Routes(g, seen, route) && current in seen
    requires InBounds(g, current) && InBounds(g, Step(current, d))
    ensures var next := Step(current, d);
            Routes(SetVisited(OpenWall(g, current, d), next), seen + {next}, route[next := route[current] + [next]])
  {
    var next := Step(current, d);
    PushOnlyOpens(g, current, d);
    PushOpensWay(g, current, d);
    RouteExtends(g, SetVisited(OpenWall(g, current, d), next), seen, route, current, next);
  }

  /** The push only opens walls. */
  lemma PushOnlyOpens(g: Grid, current: Pos, d: Dir)
    requires WellFormed(g) && InBounds(g, current) && InBounds(g, Step(current, d))
    ensures OnlyOpened(g, SetVisited(OpenWall(g, current, d), Step(current, d)))
  {
    var carved := OpenWall(g, current, d);
    OnlyOpenedTransitive(g, carved, SetVisited(carved, Step(current, d)));
  }

  /** After the push, the new cell is an open neighbour of the one it was reached from. */
  lemma PushOpensWay(g: Grid, current: Pos, d: Dir)
    requires WellFormed(g) && InBounds(g, current) && InBounds(g, Step(current, d))
    ensures Step(current, d) in OpenNeighbors(SetVisited(OpenWall(g, current, d), Step(current, d)), current)
  {
    var carved := OpenWall(g, current, d);
    assert !WallAt(carved, current, d);
  }

  /** A path extended by an open neighbour of its last cell is a path. */
  lemma PathSnoc(g: Grid, path: seq<Pos>, next: Pos)
    requires WellFormed(g) && IsPath(g, path) && InBounds(g, next)
    requires next in OpenNeighbors(g, path[|path| - 1])
    ensures IsPath(g, path + [next])
  {
    var p := path + [next];
    forall i | 0 <= i < |p| ensures InBounds(g, p[i]) {
      if i < |path| {
        assert p[i] == path[i];
      }
    }
    forall i | 0 <= i < |p| - 1 ensures p[i + 1] in OpenNeighbors(g, p[i]) {
      if i < |path| - 1 {
        assert p[i] == path[i] && p[i + 1] == path[i + 1];
      } else {
        assert p[i] == path[|path| - 1] && p[i + 1] == next;
      }
    }
  }

  lemma RoutesAdd(g: Grid, seen: set<Pos>, route: map<Pos, seq<Pos>>, next: Pos, toNext: seq<Pos>)
    requires WellFormed(g) && Routes(g, seen, route)
    requires IsPath(g, toNext) && toNext[0] == Start && toNext[|toNext| - 1] == next
    ensures Routes(g, seen + {next}, route[next := toNext])
  {
  }

  /** Opening the wall towards an unreached, fully walled cell adds one open boundary. */
  lemma PushCountsEdge(g: Grid, seen: set<Pos>, current: Pos, d: Dir)
    requires WellFormed(g) && UnseenClosed(g, seen) && Consistent(g)
    requires InBounds(g, current) && InBounds(g, Step(current, d)) && Step(current, d) !in seen
    ensures |OpenEdges(SetVisited(OpenWall(g, current, d), Step(current, d)))| == |OpenEdges(g)| + 1
  {
    var next := Step(current, d);
    assert WallAt(g, next, Opposite(d));
    assert Step(next, Opposite(d)) == current;
    assert WallAt(g, current, d);
    OpenWallAddsEdge(g, current, d);
    var carved := OpenWall(g, current, d);
    SameWallsSameEdges(carved, SetVisited(carved, next));
  }

  /** Cells still unreached keep all their walls. */
  lemma PushKeepsUnseenClosed(g: Grid, seen: set<Pos>, current: Pos, d: Dir)
    requires WellFormed(g) && UnseenClosed(g, seen) && current in seen
    requires InBounds(g, current) && InBounds(g, Step(current, d))
    ensures UnseenClosed(SetVisited(OpenWall(g, current, d), Step(current, d)), seen + {Step(current, d)})
  {
    var next := Step(current, d);
    var marked := SetVisited(OpenWall(g, current, d), next);
    forall p, e | InBounds(marked, p) && p !in seen + {next}
      ensures WallAt(marked, p, e)
    {
      assert WallAt(g, p, e);
      assert !IsSide(p, e, current, d);
    }
  }

  lemma PushKeepsVisits(g: Grid, seen: set<Pos>, current: Pos, d: Dir)
    requires WellFormed(g) && VisitedIsSeen(g, seen)
    requires InBounds(g, current) && InBounds(g, Step(current, d))
    ensures VisitedIsSeen(SetVisited(OpenWall(g, current, d), Step(current, d)), seen + {Step(current, d)})
  {
  }

  /** Stepping to an unvisited neighbour keeps what has been built consistent. */
  lemma CarvePushGrown(g0: Grid, g: Grid, seen: set<Pos>, route: map<Pos, seq<Pos>>, current: Pos, d: Dir)
    requires Grown(g0, g, seen, route) && current in seen && InBounds(g, current)
    requires d in UnvisitedDirs(g, current)
    ensures var next := Step(current, d);
            && next in AllPos(Cols(g), |g|) - seen
            && Grown(g0, SetVisited(OpenWall(g, current, d), next), seen + {next},
                     route[next := route[current] + [next]])
  {
    var next := Step(current, d);
    var marked := SetVisited(OpenWall(g, current, d), next);
    PushTarget(g, seen, current, d);
    PushKeepsGrid(g, seen, current, d);
    PushExtendsRoutes(g, seen, route, current, d);
    AddFresh(seen, next);
    GrownIntro(g0, marked, seen + {next}, route[next := route[current] + [next]]);
  }

  /** The cell a push moves to is inside the grid and not reached yet. */
  lemma PushTarget(g: Grid, seen: set<Pos>, current: Pos, d: Dir)
    requires WellFormed(g) && VisitedIsSeen(g, seen) && seen <= AllPos(Cols(g), |g|)
    requires InBounds(g, current) && d in UnvisitedDirs(g, current)
    ensures InBounds(g, Step(current, d)) && Step(current, d) !in seen
    ensures seen + {Step(current, d)} <= AllPos(Cols(g), |g|)
    ensures Step(current, d) in AllPos(Cols(g), |g|) - seen
  {
  }

  /** The grid side of a push: sound, one more open boundary, visits and walls tracking `seen`. */
  lemma PushKeepsGrid(g: Grid, seen: set<Pos>, current: Pos, d: Dir)
    requires Sound(g) && UnseenClosed(g, seen) && VisitedIsSeen(g, seen) && current in seen
    requires InBounds(g, current) && InBounds(g, Step(current, d)) && Step(current, d) !in seen
    ensures var next := Step(current, d);
            var marked := SetVisited(OpenWall(g, current, d), next);
            && Sound(marked) && |OpenEdges(marked)| == |OpenEdges(g)| + 1
            && UnseenClosed(marked, seen + {next}) && VisitedIsSeen(marked, seen + {next})
  {
    PushKeepsSound(g, current, d);
    PushCountsEdge(g, seen, current, d);
    PushKeepsUnseenClosed(g, seen, current, d);
    PushKeepsVisits(g, seen, current, d);
  }

  lemma PushKeepsSound(g: Grid, current: Pos, d: Dir)
    requires Sound(g) && InBounds(g, current) && InBounds(g, Step(current, d))
    ensures Sound(SetVisited(OpenWall(g, current, d), Step(current, d)))
  {
    var carved := OpenWall(g, current, d);
    OpenWallKeepsSound(g, current, d);
    SameWallsSameSound(carved, SetVisited(carved, Step(current, d)));
  }

  lemma GrownIntro(g0: Grid, g: Grid, seen: set<Pos>, route: map<Pos, seq<Pos>>)
    requires WellFormed(g0) && Sound(g) && SameShape(g0, g)
    requires seen <= AllPos(Cols(g), |g|) && Start in seen
    requires VisitedIsSeen(g, seen) && UnseenClosed(g, seen) && Routes(g, seen, route)
    requires |OpenEdges(g)| + 1 == |seen|
    ensures Grown(g0, g, seen, route)
  {
  }

  lemma CarvePushStack(g: Grid, h: Grid, stack: seq<Pos>, seen: set<Pos>, next: Pos)
    requires WellFormed(g) && WellFormed(h) && SameShape(g, h) && StackOk(g, stack, seen)
    ensures StackOk(h, stack + [next], seen + {next})
  {
  }

  /** When the stack is empty, every cell has been reached. */
  lemma CarveDone(g0: Grid, g: Grid, seen: set<Pos>, route: map<Pos, seq<Pos>>)
    requires CarveInv(g0, g, [], seen, route)
    ensures AllVisited(g) && Connected(g)
    ensures |OpenEdges(g)| == |g| * Cols(g) - 1
  {
    CarveDoneSeen(g0, g, seen, route);
    AllPosSize(Cols(g), |g|);
    RoutesConnect(g, seen, route);
  }

  /** With the stack empty, every cell has been reached. */
  lemma CarveDoneSeen(g0: Grid, g: Grid, seen: set<Pos>, route: map<Pos, seq<Pos>>)
    requires CarveInv(g0, g, [], seen, route)
    ensures seen == AllPos(Cols(g), |g|)
  {
    var cols, rows := Cols(g), |g|;
    FinishedClosed(g, seen);
    forall p | p in AllPos(cols, rows)
      ensures p in seen
    {
      ClosedSetContains(cols, rows, seen, p);
    }
  }

  /** With nothing on the stack, the reached cells are closed under moving to a neighbour. */
  lemma FinishedClosed(g: Grid, seen: set<Pos>)
    requires WellFormed(g) && Finished(g, [], seen)
    ensures forall q, d | q in seen && Step(q, d) in AllPos(Cols(g), |g|) :: Step(q, d) in seen
  {
    forall q, d | q in seen && Step(q, d) in AllPos(Cols(g), |g|)
      ensures Step(q, d) in seen
    {
      assert InBounds(g, Step(q, d));
    }
  }

  /** Routes to every cell make the maze connected. */
  lemma RoutesConnect(g: Grid, seen: set<Pos>, route: map<Pos, seq<Pos>>)
    requires WellFormed(g) && Routes(g, seen, route) && seen == AllPos(Cols(g), |g|)
    ensures Connected(g)
  {
    forall p | InBounds(g, p)
      ensures Reachable(g, Start, p)
    {
      assert p in seen;
      assert IsPath(g, route[p]);
    }
  }

  /**
   * The depth-first carve. Starting from the entrance, it repeatedly looks at
   * the cell on top of the stack: with no unvisited neighbour it backtracks,
   * otherwise it opens the wall towards a randomly chosen unvisited
   * neighbour, marks it visited and pushes it. The open walls then form a
   * spanning tree: every cell is reachable from the entrance and exactly
   * `rows * cols - 1` boundaries are open.
   */
  method CarveTree(g0: Grid, pick: nat -> nat) returns (g: Grid)
    requires Pristine(g0)
    ensures WellFormed(g) && SameShape(g0, g)
    ensures Consistent(g) && PerimeterClosed(g)
    ensures AllVisited(g)
    ensures Connected(g)
    ensures |OpenEdges(g)| == |g| * Cols(g) - 1
  {
    g := SetVisited(g0, Start);
    var stack := [Start];
    var draws := 0;
    ghost var seen := {Start};
    ghost var route := map[Start := [Start]];
    CarveStart(g0);

    while |stack| > 0
      invariant CarveInv(g0, g, stack, seen, route)
      decreases AllPos(Cols(g0), |g0|) - seen, |stack|
    {
      var current := stack[|stack| - 1];
      var options := UnvisitedDirs(g, current);
      if |options| == 0 {
        CarvePop(g, stack, seen);
        stack := stack[..|stack| - 1];
      } else {
        var d := options[pick(draws) % |options|];
        draws := draws + 1;
        var next := Step(current, d);
        CarvePushGrown(g0, g, seen, route, current, d);
        var h := SetVisited(OpenWall(g, current, d), next);
        CarvePushStack(g, h, stack, seen, next);
        g := h;
        stack := stack + [next];
        seen := seen + {next};
        route := route[next := route[current] + [next]];
      }
    }
    CarveDone(g0, g, seen, route);
  }

  // ---------------------------------------------------------------------
  // Loosening
  // ---------------------------------------------------------------------

  /** Every cell before `(x, y)` in row-major order has its right and bottom walls open where they are interior. */
  ghost predicate LoosenedBefore(g: Grid, x: int, y: int)
    requires WellFormed(g)
  {
    forall q | InBounds(g, q) && (q.y < y || (q.y == y && q.x < x)) ::
      && (q.x < Cols(g) - 1 ==> !WallAt(g, q, Right))
      && (q.y < |g| - 1 ==> !WallAt(g, q, Bottom))
  }

  /**
   * Whether the loosening pass draws a coin for side `d` of `p`: it is a
   * right or bottom wall, a neighbour lies behind it, and it still stands.
   */
  predicate DrawsCoin(g: Grid, p: Pos, d: Dir)
    requires WellFormed(g)
  {
    (d == Right || d == Bottom) && InBounds(g, p) && InBounds(g, Step(p, d)) && WallAt(g, p, d)
  }

  function Count(b: bool): nat {
    if b then 1 else 0
  }

  /** Coins drawn in row `y` for the cells left of column `x`. */
  function RowDraws(g: Grid, y: int, x: int): nat
    requires WellFormed(g) && 0 <= y < |g| && 0 <= x <= Cols(g)
    decreases x
  {
    if x == 0 then 0
    else RowDraws(g, y, x - 1) + Count(DrawsCoin(g, Pos(x - 1, y), Right)) + Count(DrawsCoin(g, Pos(x - 1, y), Bottom))
  }

  /** Coins drawn in the rows above row `y`. */
  function RowsDraws(g: Grid, y: int): nat
    requires WellFormed(g) && 0 <= y <= |g|
    decreases y
  {
    if y == 0 then 0 else RowsDraws(g, y - 1) + RowDraws(g, y - 1, Cols(g))
  }

  /** Coins drawn in the row of `p` before side `d` of `p` is tested: the right wall is tested before the bottom one. */
  function SideDraw(g: Grid, p: Pos, d: Dir): nat
    requires WellFormed(g) && InBounds(g, p)
  {
    RowDraws(g, p.y, p.x) + (if d == Bottom then Count(DrawsCoin(g, p, Right)) else 0)
  }

  /** The coin the whole pass draws for side `d` of `p`, in row-major order. */
  function WallDraw(g: Grid, p: Pos, d: Dir): nat
    requires WellFormed(g) && InBounds(g, p)
  {
    RowsDraws(g, p.y) + SideDraw(g, p, d)
  }

  /** One loosening test: the wall on side `d` of `p`, if it is interior and standing, opens when the coin says so. */
  method LoosenSide(g0: Grid, g: Grid, p: Pos, d: Dir, coin: nat -> bool, draws: nat)
    returns (h: Grid, draws': nat)
    requires WellFormed(g0) && Widened(g0, g) && InBounds(g, p)
    ensures Widened(g0, h)
    ensures InBounds(g, Step(p, d)) && WallAt(g, p, d) ==>
      draws' == draws + 1 && (WallAt(h, p, d) <==> !coin(draws))
    ensures InBounds(g, Step(p, d)) && WallAt(g, p, d) && coin(draws) ==> h == OpenWall(g, p, d)
    ensures !(InBounds(g, Step(p, d)) && WallAt(g, p, d)) ==> draws' == draws && h == g
    ensures !coin(draws) ==> h == g
    ensures coin(draws) && InBounds(g, Step(p, d)) ==> !WallAt(h, p, d)
    ensures OnlyOpened(g, h) && SameShape(g, h)
    ensures forall q, e | InBounds(g, q) && !IsSide(q, e, p, d) :: WallAt(h, q, e) == WallAt(g, q, e)
  {
    h, draws' := g, draws;
    if InBounds(g, Step(p, d)) && WallAt(g, p, d) {
      var chance := coin(draws);
      draws' := draws + 1;
      if chance {
        h := OpenWall(g, p, d);
        OpenWallWidens(g0, g, p, d);
        OpenWallOnlyOpens(g, p, d);
      }
    }
  }

  /**
   * The loosening pass: row by row, each cell's right wall (when a right
   * neighbour exists) and bottom wall (when a lower neighbour exists) that
   * is still standing is opened when the next coin says so. Each such wall
   * is tested exactly once, with coin number `WallDraw`, and ends open
   * exactly when that coin is heads; every other right or bottom wall is
   * left as it was. The pass only opens walls and keeps the grid sound, so
   * in a sound grid the left and top copies follow their partners. With
   * every coin heads it opens every interior boundary; with every coin
   * tails it changes nothing.
   */
  method Loosen(g0: Grid, coin: nat -> bool) returns (g: Grid)
    requires WellFormed(g0)
    ensures Widened(g0, g)
    ensures forall q, e {:trigger WallDraw(g0, q, e)} | DrawsCoin(g0, q, e) :: !WallAt(g, q, e) <==> coin(WallDraw(g0, q, e))
    ensures forall q, e | InBounds(g0, q) && (e == Right || e == Bottom) && !DrawsCoin(g0, q, e) ::
      WallAt(g, q, e) == WallAt(g0, q, e)
    ensures (forall k :: coin(k)) ==> LoosenedBefore(g, 0, |g|)
    ensures (forall k :: !coin(k)) ==> g == g0
  {
    var rows := |g0|;
    g := g0;
    var draws := 0;
    var y := 0;
    LoosenStart(g0, coin);
    while y < rows
      invariant 0 <= y <= rows
      invariant Widened(g0, g)
      invariant LoosenInv(g0, g, coin, y, draws)
      invariant (forall k :: !coin(k)) ==> g == g0
    {
      var h, d := LoosenRow(g0, g, y, coin, draws);
      var row := y;
      y := y + 1;
      LoosenInvStep(g0, g, coin, row, y, draws, h, d);
      g, draws := h, d;
    }
    LoosenDone(g0, g, coin, draws);
    if forall k :: coin(k) {
      AllHeadsOpens(g0, g, coin);
    }
  }

  /**
   * The pass before row `y`: the coins of the rows above are drawn, each
   * tested wall there ends open exactly on its coin, and every right or
   * bottom wall not yet tested, or never tested, is as it was.
   */
  ghost predicate LoosenInv(g0: Grid, g: Grid, coin: nat -> bool, y: int, draws: nat)
    requires WellFormed(g0) && WellFormed(g) && SameShape(g0, g) && 0 <= y <= |g0|
  {
    && draws == RowsDraws(g0, y)
    && (forall q, e {:trigger WallDraw(g0, q, e)} | DrawsCoin(g0, q, e) && q.y < y :: !WallAt(g, q, e) <==> coin(WallDraw(g0, q, e)))
    && (forall q, e | InBounds(g0, q) && (e == Right || e == Bottom) && (q.y >= y || !DrawsCoin(g0, q, e)) ::
          WallAt(g, q, e) == WallAt(g0, q, e))
  }

  /** Before the first row nothing is drawn and nothing has changed. */
  lemma LoosenStart(g0: Grid, coin: nat -> bool)
    requires WellFormed(g0)
    ensures LoosenInv(g0, g0, coin, 0, 0)
  {
  }

  /** After the last row every tested wall has met its coin and no other right or bottom wall has changed. */
  lemma LoosenDone(g0: Grid, g: Grid, coin: nat -> bool, draws: nat)
    requires WellFormed(g0) && WellFormed(g) && SameShape(g0, g) && LoosenInv(g0, g, coin, |g0|, draws)
    ensures forall q, e {:trigger WallDraw(g0, q, e)} | DrawsCoin(g0, q, e) :: !WallAt(g, q, e) <==> coin(WallDraw(g0, q, e))
    ensures forall q, e | InBounds(g0, q) && (e == Right || e == Bottom) && !DrawsCoin(g0, q, e) ::
      WallAt(g, q, e) == WallAt(g0, q, e)
  {
  }

  /**
   * With every coin heads, every interior right and bottom wall ends open:
   * those standing were tested and opened, and the others were already open.
   */
  lemma AllHeadsOpens(g0: Grid, g: Grid, coin: nat -> bool)
    requires WellFormed(g0) && WellFormed(g) && SameShape(g0, g) && forall k :: coin(k)
    requires forall q, e {:trigger WallDraw(g0, q, e)} | DrawsCoin(g0, q, e) :: !WallAt(g, q, e) <==> coin(WallDraw(g0, q, e))
    requires forall q, e | InBounds(g0, q) && (e == Right || e == Bottom) && !DrawsCoin(g0, q, e) ::
      WallAt(g, q, e) == WallAt(g0, q, e)
    ensures LoosenedBefore(g, 0, |g|)
  {
    forall q | InBounds(g, q) && (q.y < |g| || (q.y == |g| && q.x < 0))
      ensures q.x < Cols(g) - 1 ==> !WallAt(g, q, Right)
      ensures q.y < |g| - 1 ==> !WallAt(g, q, Bottom)
    {
      if DrawsCoin(g0, q, Right) {
        assert coin(WallDraw(g0, q, Right));
      }
      if DrawsCoin(g0, q, Bottom) {
        assert coin(WallDraw(g0, q, Bottom));
      }
    }
  }

  /** A row processed from a state meeting the invariant gives the invariant for the next row. */
  lemma LoosenInvStep(g0: Grid, g: Grid, coin: nat -> bool, y: int, next: int, draws: nat, h: Grid, d: nat)
    requires WellFormed(g0) && WellFormed(g) && WellFormed(h) && SameShape(g0, g) && SameShape(g, h) && 0 <= y < |g0|
    requires next == y + 1
    requires LoosenInv(g0, g, coin, y, draws)
    requires d == draws + RowDraws(g, y, Cols(g))
    requires forall q, e {:trigger SideDraw(g, q, e)} | DrawsCoin(g, q, e) && q.y == y :: !WallAt(h, q, e) <==> coin(draws + SideDraw(g, q, e))
    requires forall q, e | InBounds(g, q) && (e == Right || e == Bottom) && (q.y != y || !DrawsCoin(g, q, e)) ::
      WallAt(h, q, e) == WallAt(g, q, e)
    ensures LoosenInv(g0, h, coin, next, d)
  {
    assert forall q, e | InBounds(g0, q) && q.y == y && (e == Right || e == Bottom) :: WallAt(g, q, e) == WallAt(g0, q, e);
    RowDrawsSame(g0, g, y, Cols(g0));
    forall q, e | DrawsCoin(g0, q, e) && q.y < y + 1
      ensures !WallAt(h, q, e) <==> coin(WallDraw(g0, q, e))
    {
      if q.y == y {
        RowCoinStep(g0, g, h, coin, y, draws, q, e);
      } else {
        assert WallAt(h, q, e) == WallAt(g, q, e);
      }
    }
    LoosenFrameStep(g0, g, h, y);
  }

  /** A wall tested in row `y` meets the coin the whole pass numbers it with. */
  lemma RowCoinStep(g0: Grid, g: Grid, h: Grid, coin: nat -> bool, y: int, draws: nat, p: Pos, d: Dir)
    requires WellFormed(g0) && WellFormed(g) && WellFormed(h) && SameShape(g0, g) && SameShape(g, h) && 0 <= y < |g0|
    requires draws == RowsDraws(g0, y) && DrawsCoin(g0, p, d) && p.y == y
    requires forall q, e | InBounds(g0, q) && q.y == y && (e == Right || e == Bottom) :: WallAt(g, q, e) == WallAt(g0, q, e)
    requires forall q, e {:trigger SideDraw(g, q, e)} | DrawsCoin(g, q, e) && q.y == y :: !WallAt(h, q, e) <==> coin(draws + SideDraw(g, q, e))
    ensures !WallAt(h, p, d) <==> coin(WallDraw(g0, p, d))
  {
    assert DrawsCoin(g, p, d);
    SideDrawSame(g0, g, p, d, y, draws);
    SameCoin(coin, draws + SideDraw(g, p, d), WallDraw(g0, p, d), WallAt(h, p, d));
  }

  /** After row `y`, the walls it did not test, and the rows below it, are still as in the input. */
  lemma LoosenFrameStep(g0: Grid, g: Grid, h: Grid, y: int)
    requires WellFormed(g0) && WellFormed(g) && WellFormed(h) && SameShape(g0, g) && SameShape(g, h) && 0 <= y < |g0|
    requires forall q, e | InBounds(g0, q) && (e == Right || e == Bottom) && (q.y >= y || !DrawsCoin(g0, q, e)) ::
      WallAt(g, q, e) == WallAt(g0, q, e)
    requires forall q, e | InBounds(g, q) && (e == Right || e == Bottom) && (q.y != y || !DrawsCoin(g, q, e)) ::
      WallAt(h, q, e) == WallAt(g, q, e)
    ensures forall q, e | InBounds(g0, q) && (e == Right || e == Bottom) && (q.y >= y + 1 || !DrawsCoin(g0, q, e)) ::
      WallAt(h, q, e) == WallAt(g0, q, e)
  {
    forall q, e | InBounds(g0, q) && (e == Right || e == Bottom) && (q.y >= y + 1 || !DrawsCoin(g0, q, e))
      ensures WallAt(h, q, e) == WallAt(g0, q, e)
    {
      if q.y == y {
        assert WallAt(g, q, e) == WallAt(g0, q, e);
        assert !DrawsCoin(g, q, e);
      }
    }
  }

  /** Two grids that agree on the right and bottom walls of a row give its walls the same draw numbers. */
  lemma SideDrawSame(g0: Grid, g: Grid, p: Pos, d: Dir, y: int, draws: nat)
    requires WellFormed(g0) && WellFormed(g) && SameShape(g0, g) && InBounds(g0, p) && p.y == y
    requires forall q, e | InBounds(g0, q) && q.y == y && (e == Right || e == Bottom) :: WallAt(g, q, e) == WallAt(g0, q, e)
    requires draws == RowsDraws(g0, y)
    ensures WallDraw(g0, p, d) == draws + SideDraw(g, p, d)
  {
    RowDrawsSame(g0, g, p.y, p.x);
    assert WallAt(g, p, Right) == WallAt(g0, p, Right);
    assert DrawsCoin(g, p, Right) == DrawsCoin(g0, p, Right);
  }

  /** The same coin read under two names for its number. */
  lemma SameCoin(coin: nat -> bool, a: nat, b: nat, standing: bool)
    requires a == b && (!standing <==> coin(a))
    ensures !standing <==> coin(b)
  {
  }

  /** Two grids that agree on the right and bottom walls of row `y` draw the same coins there. */
  lemma {:induction false} RowDrawsSame(g0: Grid, g: Grid, y: int, x: int)
    requires WellFormed(g0) && WellFormed(g) && SameShape(g0, g) && 0 <= y < |g0| && 0 <= x <= Cols(g0)
    requires forall q, e | InBounds(g0, q) && q.y == y && (e == Right || e == Bottom) :: WallAt(g, q, e) == WallAt(g0, q, e)
    ensures RowDraws(g, y, x) == RowDraws(g0, y, x)
    decreases x
  {
    if x > 0 {
      RowDrawsSame(g0, g, y, x - 1);
      var p := Pos(x - 1, y);
      assert DrawsCoin(g, p, Right) == DrawsCoin(g0, p, Right);
      assert DrawsCoin(g, p, Bottom) == DrawsCoin(g0, p, Bottom);
    }
  }

  /**
   * One row of the loosening pass, left to right: the coins drawn are those
   * of the row's tested walls, in order, and each tested wall ends open
   * exactly on its coin; no other right or bottom wall changes.
   */
  method LoosenRow(g0: Grid, g: Grid, y: int, coin: nat -> bool, draws: nat) returns (h: Grid, draws': nat)
    requires WellFormed(g0) && Widened(g0, g) && 0 <= y < |g|
    ensures Widened(g0, h)
    ensures draws' == draws + RowDraws(g, y, Cols(g))
    ensures forall q, e {:trigger SideDraw(g, q, e)} | DrawsCoin(g, q, e) && q.y == y :: !WallAt(h, q, e) <==> coin(draws + SideDraw(g, q, e))
    ensures forall q, e | InBounds(g, q) && (e == Right || e == Bottom) && (q.y != y || !DrawsCoin(g, q, e)) ::
      WallAt(h, q, e) == WallAt(g, q, e)
    ensures (forall k :: coin(k)) && LoosenedBefore(g, 0, y) ==> LoosenedBefore(h, 0, y + 1)
    ensures (forall k :: !coin(k)) ==> h == g
  {
    var cols := Cols(g);
    h, draws' := g, draws;
    var x := 0;
    while x < cols
      invariant 0 <= x <= cols
      invariant Widened(g0, h) && SameShape(g, h)
      invariant RowInv(g, h, coin, y, x, draws, draws')
      invariant (forall k :: !coin(k)) ==> h == g
    {
      var cell := x;
      x := x + 1;
      h, draws' := LoosenCell(g0, g, h, y, cell, x, coin, draws, draws');
    }
    RowDone(g, h, coin, y, draws, draws');
    if (forall k :: coin(k)) && LoosenedBefore(g, 0, y) {
      RowAllHeads(g, h, coin, y, draws);
    }
  }

  /** The cell at column `x` of row `y`: its right wall is tested, then its bottom wall. */
  method LoosenCell(g0: Grid, g: Grid, h: Grid, y: int, x: int, next: int, coin: nat -> bool, draws: nat, d: nat)
    returns (h': Grid, d': nat)
    requires WellFormed(g0) && Widened(g0, g) && Widened(g0, h) && SameShape(g, h) && 0 <= y < |g| && 0 <= x < Cols(g)
    requires next == x + 1 && RowInv(g, h, coin, y, x, draws, d)
    ensures Widened(g0, h') && SameShape(g, h')
    ensures RowInv(g, h', coin, y, next, draws, d')
    ensures (forall k :: !coin(k)) ==> h' == h
  {
    var p := Pos(x, y);
    var g1, d2;
    g1, d2 := LoosenSide(g0, h, p, Right, coin, d);
    h', d' := LoosenSide(g0, g1, p, Bottom, coin, d2);
    RowInvStep(g, h, g1, h', coin, y, x, draws, d, d2, d');
  }

  /** Past the last column the row invariant is the row's contract. */
  lemma RowDone(g: Grid, h: Grid, coin: nat -> bool, y: int, draws: nat, d: nat)
    requires WellFormed(g) && WellFormed(h) && SameShape(g, h) && 0 <= y < |g|
    requires RowInv(g, h, coin, y, Cols(g), draws, d)
    ensures d == draws + RowDraws(g, y, Cols(g))
    ensures forall q, e {:trigger SideDraw(g, q, e)} | DrawsCoin(g, q, e) && q.y == y :: !WallAt(h, q, e) <==> coin(draws + SideDraw(g, q, e))
    ensures forall q, e | InBounds(g, q) && (e == Right || e == Bottom) && (q.y != y || !DrawsCoin(g, q, e)) ::
      WallAt(h, q, e) == WallAt(g, q, e)
  {
  }

  /** The row loop before column `x`: the coins of the cells to the left are drawn, with their walls set by them. */
  ghost predicate RowInv(g: Grid, h: Grid, coin: nat -> bool, y: int, x: int, draws: nat, draws': nat)
    requires WellFormed(g) && WellFormed(h) && SameShape(g, h) && 0 <= y < |g| && 0 <= x <= Cols(g)
  {
    && draws' == draws + RowDraws(g, y, x)
    && (forall q, e {:trigger SideDraw(g, q, e)} | DrawsCoin(g, q, e) && q.y == y && q.x < x ::
          !WallAt(h, q, e) <==> coin(draws + SideDraw(g, q, e)))
    && (forall q, e | InBounds(g, q) && (e == Right || e == Bottom) && (q.y != y || q.x >= x || !DrawsCoin(g, q, e)) ::
          WallAt(h, q, e) == WallAt(g, q, e))
  }

  /** Testing the right, then the bottom wall of the cell at column `x` moves the row invariant one cell on. */
  lemma RowInvStep(g: Grid, h: Grid, g1: Grid, g2: Grid, coin: nat -> bool, y: int, x: int,
                   draws: nat, d1: nat, d2: nat, d3: nat)
    requires WellFormed(g) && WellFormed(h) && WellFormed(g1) && WellFormed(g2)
    requires SameShape(g, h) && SameShape(h, g1) && SameShape(g1, g2) && 0 <= y < |g| && 0 <= x < Cols(g)
    requires RowInv(g, h, coin, y, x, draws, d1)
    requires InBounds(h, Step(Pos(x, y), Right)) && WallAt(h, Pos(x, y), Right) ==>
      d2 == d1 + 1 && (WallAt(g1, Pos(x, y), Right) <==> !coin(d1))
    requires !(InBounds(h, Step(Pos(x, y), Right)) && WallAt(h, Pos(x, y), Right)) ==> d2 == d1 && g1 == h
    requires forall q, e | InBounds(h, q) && !IsSide(q, e, Pos(x, y), Right) :: WallAt(g1, q, e) == WallAt(h, q, e)
    requires InBounds(g1, Step(Pos(x, y), Bottom)) && WallAt(g1, Pos(x, y), Bottom) ==>
      d3 == d2 + 1 && (WallAt(g2, Pos(x, y), Bottom) <==> !coin(d2))
    requires !(InBounds(g1, Step(Pos(x, y), Bottom)) && WallAt(g1, Pos(x, y), Bottom)) ==> d3 == d2 && g2 == g1
    requires forall q, e | InBounds(g1, q) && !IsSide(q, e, Pos(x, y), Bottom) :: WallAt(g2, q, e) == WallAt(g1, q, e)
    ensures RowInv(g, g2, coin, y, x + 1, draws, d3)
  {
    var p := Pos(x, y);
    assert WallAt(h, p, Right) == WallAt(g, p, Right);
    assert WallAt(g1, p, Bottom) == WallAt(h, p, Bottom) == WallAt(g, p, Bottom);
    assert d1 == draws + SideDraw(g, p, Right);
    assert d2 == draws + SideDraw(g, p, Bottom);
    assert d3 == draws + RowDraws(g, y, x + 1);
    forall q, e | DrawsCoin(g, q, e) && q.y == y && q.x < x + 1
      ensures !WallAt(g2, q, e) <==> coin(draws + SideDraw(g, q, e))
    {
      if q == p {
        if e == Right {
          assert !IsSide(q, e, p, Bottom);
        }
      } else {
        assert !IsSide(q, e, p, Bottom) && !IsSide(q, e, p, Right);
      }
    }
    forall q, e | InBounds(g, q) && (e == Right || e == Bottom) && (q.y != y || q.x >= x + 1 || !DrawsCoin(g, q, e))
      ensures WallAt(g2, q, e) == WallAt(g, q, e)
    {
      assert !IsSide(q, e, p, Bottom) || q == p;
      assert !IsSide(q, e, p, Right) || q == p;
    }
  }

  /**
   * With every coin heads, a row leaves every interior right and bottom wall
   * of its cells open, and the rows above as they were.
   */
  lemma RowAllHeads(g: Grid, h: Grid, coin: nat -> bool, y: int, draws: nat)
    requires WellFormed(g) && WellFormed(h) && SameShape(g, h) && 0 <= y < |g|
    requires (forall k :: coin(k)) && LoosenedBefore(g, 0, y)
    requires forall q, e {:trigger SideDraw(g, q, e)} | DrawsCoin(g, q, e) && q.y == y :: !WallAt(h, q, e) <==> coin(draws + SideDraw(g, q, e))
    requires forall q, e | InBounds(g, q) && (e == Right || e == Bottom) && (q.y != y || !DrawsCoin(g, q, e)) ::
      WallAt(h, q, e) == WallAt(g, q, e)
    ensures LoosenedBefore(h, 0, y + 1)
  {
    forall q | InBounds(h, q) && (q.y < y + 1 || (q.y == y + 1 && q.x < 0))
      ensures q.x < Cols(h) - 1 ==> !WallAt(h, q, Right)
      ensures q.y < |h| - 1 ==> !WallAt(h, q, Bottom)
    {
      if DrawsCoin(g, q, Right) && q.y == y {
        assert coin(draws + SideDraw(g, q, Right));
      }
      if DrawsCoin(g, q, Bottom) && q.y == y {
        assert coin(draws + SideDraw(g, q, Bottom));
      }
    }
  }

  /**
   * Carving followed by loosening, as the game runs them on a fresh grid:
   * the result is sound, fully visited, connected, and has at least the
   * spanning tree's `rows * cols - 1` open boundaries.
   */
  method CarveMaze(g0: Grid, pick: nat -> nat, coin: nat -> bool) returns (g: Grid)
    requires Pristine(g0)
    ensures Sound(g) && SameShape(g0, g)
    ensures AllVisited(g) && Connected(g)
    ensures |OpenEdges(g)| >= |g| * Cols(g) - 1
  {
    var tree := CarveTree(g0, pick);
    g := Loosen(tree, coin);
    AllVisitedPersists(tree, g);
    ConnectedPersists(tree, g);
    OpenEdgesGrow(tree, g);
    SubsetSize(OpenEdges(tree), OpenEdges(g));
  }
}

=== FILE: maze_grid.dfy ===
/**
 * The maze of the Maze Race mini-game: a rectangular grid of cells, each
 * carrying four wall flags, plus the read-only neighbour query that path
 * counting and creature movement use.
 *
 * A wall flag is `true` while the wall stands. A boundary between two
 * adjacent cells is stored twice, once in each cell, and every mutation in
 * the game opens both copies together (`OpenWall`).
 */
module MazeGrid {

  datatype Dir = Top | Right | Bottom | Left

  function Opposite(d: Dir): Dir {
    match d
    case Top => Bottom
    case Right => Left
    case Bottom => Top
    case Left => Right
  }

  datatype Pos = Pos(x: int, y: int)

  /** The neighbouring position one step in direction `d`. */
  function Step(p: Pos, d: Dir): Pos {
    match d
    case Top => Pos(p.x, p.y - 1)
    case Right => Pos(p.x + 1, p.y)
    case Bottom => Pos(p.x, p.y + 1)
    case Left => Pos(p.x - 1, p.y)
  }

  datatype Walls = Walls(top: bool, right: bool, bottom: bool, left: bool) {
    function Get(d: Dir): bool {
      match d
      case Top => top
      case Right => right
      case Bottom => bottom
      case Left => left
    }

    function Clear(d: Dir): (w: Walls)
      ensures !w.Get(d)
      ensures forall e | e != d :: w.Get(e) == Get(e)
    {
      match d
      case Top => this.(top := false)
      case Right => this.(right := false)
      case Bottom => this.(bottom := false)
      case Left => this.(left := false)
    }
  }

  const AllClosed: Walls := Walls(true, true, true, true)

  datatype Cell = Cell(x: int, y: int, visited: bool, walls: Walls)

  /** `grid[y][x]`, row-major as in the game. */
  type Grid = seq<seq<Cell>>

  function Cols(g: Grid): int {
    if |g| == 0 then 0 else |g[0]|
  }

  /** At least one cell, all rows equally long, and every cell knows its own coordinates. */
  predicate WellFormed(g: Grid) {
    && |g| >= 1
    && |g[0]| >= 1
    && (forall y | 0 <= y < |g| :: |g[y]| == |g[0]|)
    && (forall y, x | 0 <= y < |g| && 0 <= x < |g[y]| :: g[y][x].x == x && g[y][x].y == y)
  }

  predicate InBounds(g: Grid, p: Pos) {
    0 <= p.y < |g| && 0 <= p.x < Cols(g)
  }

  predicate SameShape(g: Grid, h: Grid) {
    |g| == |h| && Cols(g) == Cols(h)
  }

  function At(g: Grid, p: Pos): Cell
    requires WellFormed(g) && InBounds(g, p)
  {
    g[p.y][p.x]
  }

  /** Whether the wall on side `d` of the cell at `p` stands. */
  function WallAt(g: Grid, p: Pos, d: Dir): bool
    requires WellFormed(g) && InBounds(g, p)
  {
    At(g, p).walls.Get(d)
  }

  /** The two cells on either side of every interior boundary agree about it. */
  ghost predicate Consistent(g: Grid)
    requires WellFormed(g)
  {
    forall p, d | InBounds(g, p) && InBounds(g, Step(p, d)) ::
      WallAt(g, p, d) == WallAt(g, Step(p, d), Opposite(d))
  }

  /** No cell has an opening towards the outside of the grid. */
  ghost predicate PerimeterClosed(g: Grid)
    requires WellFormed(g)
  {
    forall p, d | InBounds(g, p) && !InBounds(g, Step(p, d)) :: WallAt(g, p, d)
  }

  ghost predicate Sound(g: Grid) {
    WellFormed(g) && Consistent(g) && PerimeterClosed(g)
  }

  /** A freshly built grid: every wall up and no cell visited. */
  ghost predicate Pristine(g: Grid) {
    && WellFormed(g)
    && forall p | InBounds(g, p) :: At(g, p).walls == AllClosed && !At(g, p).visited
  }

  /** `h` is `g` with some walls opened and nothing closed, coordinates unchanged. */
  ghost predicate OnlyOpened(g: Grid, h: Grid)
    requires WellFormed(g) && WellFormed(h)
  {
    && SameShape(g, h)
    && forall p, d | InBounds(g, p) :: WallAt(h, p, d) ==> WallAt(g, p, d)
  }

  ghost predicate SameVisits(g: Grid, h: Grid)
    requires WellFormed(g) && WellFormed(h) && SameShape(g, h)
  {
    forall p | InBounds(g, p) :: At(h, p).visited == At(g, p).visited
  }

  ghost predicate AllVisited(g: Grid)
    requires WellFormed(g)
  {
    forall p | InBounds(g, p) :: At(g, p).visited
  }

  lemma AllVisitedPersists(g: Grid, h: Grid)
    requires WellFormed(g) && WellFormed(h) && SameShape(g, h) && SameVisits(g, h) && AllVisited(g)
    ensures AllVisited(h)
  {
    forall p | InBounds(h, p) ensures At(h, p).visited {
      assert InBounds(g, p);
    }
  }

  /** Builds a fully walled `rows` x `cols` grid, `grid[y][x]` having coordinates `(x, y)`. */
  function CreateGrid(cols: nat, rows: nat): (g: Grid)
    ensures |g| == rows
    ensures forall y | 0 <= y < rows :: |g[y]| == cols
    ensures forall y, x | 0 <= y < rows && 0 <= x < cols ::
      g[y][x] == Cell(x, y, false, AllClosed)
    ensures rows >= 1 && cols >= 1 ==> Pristine(g) && Sound(g) && Cols(g) == cols
  {
    seq(rows, y => seq(cols, x => Cell(x, y, false, AllClosed)))
  }

  function SetCell(g: Grid, p: Pos, c: Cell): (h: Grid)
    requires WellFormed(g) && InBounds(g, p)
    requires c.x == p.x && c.y == p.y
    ensures WellFormed(h) && SameShape(g, h)
    ensures At(h, p) == c
    ensures forall q | InBounds(g, q) && q != p :: At(h, q) == At(g, q)
  {
    g[p.y := g[p.y][p.x := c]]
  }

  /** Whether side `e` of `q` is one of the two copies of the boundary on side `d` of `p`. */
  predicate IsSide(q: Pos, e: Dir, p: Pos, d: Dir) {
    (q == p && e == d) || (q == Step(p, d) && e == Opposite(d))
  }

  /**
   * Opens the boundary between the cell at `p` and its neighbour in
   * direction `d`, on both sides at once; every other wall and every visited
   * mark stays as it was. Every wall change in carving, loosening and repair
   * goes through here.
   */
  function OpenWall(g: Grid, p: Pos, d: Dir): (h: Grid)
    requires WellFormed(g) && InBounds(g, p) && InBounds(g, Step(p, d))
    ensures WellFormed(h) && SameShape(g, h)
    ensures forall q, e | InBounds(g, q) :: WallAt(h, q, e) == (WallAt(g, q, e) && !IsSide(q, e, p, d))
    ensures SameVisits(g, h)
  {
    ClearWall(ClearWall(g, p, d), Step(p, d), Opposite(d))
  }

  /** Knocks down one copy of a boundary: the wall on side `d` of the cell at `p`. */
  function ClearWall(g: Grid, p: Pos, d: Dir): (h: Grid)
    requires WellFormed(g) && InBounds(g, p)
    ensures WellFormed(h) && SameShape(g, h)
    ensures forall q, e | InBounds(g, q) :: WallAt(h, q, e) == (WallAt(g, q, e) && !(q == p && e == d))
    ensures SameVisits(g, h)
  {
    var c := At(g, p);
    SetCell(g, p, c.(walls := c.walls.Clear(d)))
  }

  /** Opening a boundary only opens walls. */
  lemma OpenWallOnlyOpens(g: Grid, p: Pos, d: Dir)
    requires WellFormed(g) && InBounds(g, p) && InBounds(g, Step(p, d))
    ensures OnlyOpened(g, OpenWall(g, p, d))
  {
  }

  /**
   * Because both copies of a boundary open together, the two cells on either
   * side of every boundary keep agreeing, and because the neighbour is inside
   * the grid, the outer wall stays shut.
   */
  lemma OpenWallKeepsSound(g: Grid, p: Pos, d: Dir)
    requires Sound(g) && InBounds(g, p) && InBounds(g, Step(p, d))
    ensures Sound(OpenWall(g, p, d))
    ensures OnlyOpened(g, OpenWall(g, p, d))
  {
    OpenWallKeepsConsistent(g, p, d);
    OpenWallKeepsPerimeter(g, p, d);
  }

  lemma OpenWallKeepsConsistent(g: Grid, p: Pos, d: Dir)
    requires WellFormed(g) && Consistent(g) && InBounds(g, p) && InBounds(g, Step(p, d))
    ensures Consistent(OpenWall(g, p, d))
  {
    var h := OpenWall(g, p, d);
    assert Step(Step(p, d), Opposite(d)) == p;
    forall r, e | InBounds(h, r) && InBounds(h, Step(r, e))
      ensures WallAt(h, r, e) == WallAt(h, Step(r, e), Opposite(e))
    {
      SideSymmetric(r, e, p, d);
      assert WallAt(g, r, e) == WallAt(g, Step(r, e), Opposite(e));
    }
  }

  lemma SideSymmetric(r: Pos, e: Dir, p: Pos, d: Dir)
    ensures IsSide(r, e, p, d) <==> IsSide(Step(r, e), Opposite(e), p, d)
  {
    assert Step(Step(r, e), Opposite(e)) == r;
    assert Opposite(Opposite(e)) == e;
    assert Step(Step(p, d), Opposite(d)) == p;
  }

  lemma OpenWallKeepsPerimeter(g: Grid, p: Pos, d: Dir)
    requires WellFormed(g) && PerimeterClosed(g) && InBounds(g, p) && InBounds(g, Step(p, d))
    ensures PerimeterClosed(OpenWall(g, p, d))
  {
    assert Step(Step(p, d), Opposite(d)) == p;
  }

  function SetVisited(g: Grid, p: Pos): (h: Grid)
    requires WellFormed(g) && InBounds(g, p)
    ensures WellFormed(h) && SameShape(g, h)
    ensures At(h, p).visited
    ensures forall q | InBounds(g, q) && q != p :: At(h, q).visited == At(g, q).visited
    ensures forall q, e | InBounds(g, q) :: WallAt(h, q, e) == WallAt(g, q, e)
  {
    var c := At(g, p);
    SetCell(g, p, c.(visited := true))
  }

  /** The side of `p` that faces the adjacent position `q`. */
  function Toward(p: Pos, q: Pos): Dir {
    if q.y < p.y then Top else if q.x > p.x then Right else if q.y > p.y then Bottom else Left
  }

  /** The top, right, bottom, left order in which the game tries directions. */
  function Index(d: Dir): int {
    match d
    case Top => 0
    case Right => 1
    case Bottom => 2
    case Left => 3
  }

  /** Position of `q` around `p` in the top, right, bottom, left order. */
  function Rank(p: Pos, q: Pos): int {
    Index(Toward(p, q))
  }

  /**
   * The neighbours a creature at `p` may move to: those inside the grid whose
   * shared wall is open on `p`'s side, listed top, right, bottom, left.
   */
  function OpenNeighbors(g: Grid, p: Pos): (r: seq<Pos>)
    requires WellFormed(g) && InBounds(g, p)
    ensures forall d :: Step(p, d) in r <==> InBounds(g, Step(p, d)) && !WallAt(g, p, d)
    ensures forall q | q in r :: q == Step(p, Toward(p, q)) && InBounds(g, q) && !WallAt(g, p, Toward(p, q))
    ensures |r| <= 4
  {
    var top, right := OpenToward(g, p, Top), OpenToward(g, p, Right);
    var bottom, left := OpenToward(g, p, Bottom), OpenToward(g, p, Left);
    var r := top + right + bottom + left;
    assert forall d :: Step(p, d) in r <==> Step(p, d) in OpenToward(g, p, d);
    r
  }

  /** The neighbours come in the top, right, bottom, left order, each at most once. */
  lemma OpenNeighborsOrdered(g: Grid, p: Pos)
    requires WellFormed(g) && InBounds(g, p)
    ensures RankSorted(p, OpenNeighbors(g, p))
  {
    var top, right := OpenToward(g, p, Top), OpenToward(g, p, Right);
    var bottom, left := OpenToward(g, p, Bottom), OpenToward(g, p, Left);
    SortedConcat(p, top, right);
    SortedConcat(p, top + right, bottom);
    SortedConcat(p, top + right + bottom, left);
  }

  predicate RankSorted(p: Pos, r: seq<Pos>) {
    forall i, j | 0 <= i < j < |r| :: Rank(p, r[i]) < Rank(p, r[j])
  }

  lemma SortedConcat(p: Pos, a: seq<Pos>, b: seq<Pos>)
    requires RankSorted(p, a) && RankSorted(p, b)
    requires forall x, y | x in a && y in b :: Rank(p, x) < Rank(p, y)
    ensures RankSorted(p, a + b)
  {
    var r := a + b;
    forall i, j | 0 <= i < j < |r| ensures Rank(p, r[i]) < Rank(p, r[j]) {
      if j < |a| {
        assert r[i] == a[i] && r[j] == a[j];
      } else if i >= |a| {
        assert r[i] == b[i - |a|] && r[j] == b[j - |a|];
      } else {
        assert r[i] in a && r[j] in b;
      }
    }
  }

  /** Directions listed in the top, right, bottom, left order, each at most once. */
  predicate DirSorted(r: seq<Dir>) {
    forall i, j | 0 <= i < j < |r| :: Index(r[i]) < Index(r[j])
  }

  lemma DirSortedConcat(a: seq<Dir>, b: seq<Dir>)
    requires DirSorted(a) && DirSorted(b)
    requires forall x, y | x in a && y in b :: Index(x) < Index(y)
    ensures DirSorted(a + b)
  {
    var r := a + b;
    forall i, j | 0 <= i < j < |r| ensures Index(r[i]) < Index(r[j]) {
      if j < |a| {
        assert r[i] == a[i] && r[j] == a[j];
      } else if i >= |a| {
        assert r[i] == b[i - |a|] && r[j] == b[j - |a|];
      } else {
        assert r[i] in a && r[j] in b;
      }
    }
  }

  /** Keeping some of the four directions, in turn, keeps their order. */
  lemma DirsInTurn(top: seq<Dir>, right: seq<Dir>, bottom: seq<Dir>, left: seq<Dir>)
    requires top == [] || top == [Top]
    requires right == [] || right == [Right]
    requires bottom == [] || bottom == [Bottom]
    requires left == [] || left == [Left]
    ensures DirSorted(top + right + bottom + left)
  {
    DirSortedConcat(top, right);
    DirSortedConcat(top + right, bottom);
    DirSortedConcat(top + right + bottom, left);
  }

  /** The neighbour on side `d` of `p`, if it is inside the grid and the wall there is open. */
  function OpenToward(g: Grid, p: Pos, d: Dir): (r: seq<Pos>)
    requires WellFormed(g) && InBounds(g, p)
    ensures |r| <= 1
    ensures Step(p, d) in r <==> InBounds(g, Step(p, d)) && !WallAt(g, p, d)
    ensures forall q | q in r :: q == Step(p, d) && Toward(p, q) == d
  {
    var c := At(g, p).walls;
    match d
    case Top => if !c.top && p.y > 0 then [Pos(p.x, p.y - 1)] else []
    case Right => if !c.right && p.x < Cols(g) - 1 then [Pos(p.x + 1, p.y)] else []
    case Bottom => if !c.bottom && p.y < |g| - 1 then [Pos(p.x, p.y + 1)] else []
    case Left => if !c.left && p.x > 0 then [Pos(p.x - 1, p.y)] else []
  }

  /** In a consistent grid the neighbour relation is symmetric. */
  lemma OpenNeighborsSymmetric(g: Grid, p: Pos, d: Dir)
    requires WellFormed(g) && Consistent(g) && InBounds(g, p) && InBounds(g, Step(p, d))
    ensures Step(p, d) in OpenNeighbors(g, p) <==> p in OpenNeighbors(g, Step(p, d))
  {
    assert Step(Step(p, d), Opposite(d)) == p;
  }

  /** Opening walls never takes a neighbour away. */
  lemma OpenNeighborsGrow(g: Grid, h: Grid, p: Pos, q: Pos)
    requires WellFormed(g) && WellFormed(h) && OnlyOpened(g, h) && InBounds(g, p)
    requires q in OpenNeighbors(g, p)
    ensures q in OpenNeighbors(h, p)
  {
    assert !WallAt(h, p, Toward(p, q));
  }

  // ---------------------------------------------------------------------
  // Paths and connectivity
  // ---------------------------------------------------------------------

  /** A walk through the maze that only crosses open walls. */
  ghost predicate IsPath(g: Grid, path: seq<Pos>)
    requires WellFormed(g)
  {
    && |path| >= 1
    && (forall i | 0 <= i < |path| :: InBounds(g, path[i]))
    && (forall i | 0 <= i < |path| - 1 :: path[i + 1] in OpenNeighbors(g, path[i]))
  }

  ghost predicate Reachable(g: Grid, a: Pos, b: Pos)
    requires WellFormed(g)
  {
    exists path :: IsPath(g, path) && path[0] == a && path[|path| - 1] == b
  }

  const Start: Pos := Pos(0, 0)

  function Goal(g: Grid): Pos {
    Pos(Cols(g) - 1, |g| - 1)
  }

  /** Every cell can be reached from the entrance. */
  ghost predicate Connected(g: Grid)
    requires WellFormed(g)
  {
    forall p | InBounds(g, p) :: Reachable(g, Start, p)
  }

  lemma PathPersists(g: Grid, h: Grid, path: seq<Pos>)
    requires WellFormed(g) && WellFormed(h) && OnlyOpened(g, h)
    requires IsPath(g, path)
    ensures IsPath(h, path)
  {
    forall i | 0 <= i < |path| - 1
      ensures path[i + 1] in OpenNeighbors(h, path[i])
    {
      OpenNeighborsGrow(g, h, path[i], path[i + 1]);
    }
  }

  /** Opening walls keeps every cell reachable. */
  lemma ConnectedPersists(g: Grid, h: Grid)
    requires WellFormed(g) && WellFormed(h) && OnlyOpened(g, h)
    requires Connected(g)
    ensures Connected(h)
  {
    forall p | InBounds(h, p)
      ensures Reachable(h, Start, p)
    {
      assert InBounds(g, p) && Reachable(g, Start, p);
      var path :| IsPath(g, path) && path[0] == Start && path[|path| - 1] == p;
      PathPersists(g, h, path);
    }
  }

  // ---------------------------------------------------------------------
  // Open boundaries, counted once each
  // ---------------------------------------------------------------------

  function AllPos(cols: int, rows: int): (s: set<Pos>)
    ensures forall p :: p in s <==> 0 <= p.x < cols && 0 <= p.y < rows
  {
    set x, y | 0 <= x < cols && 0 <= y < rows :: Pos(x, y)
  }

  /** An interior boundary, named by its upper or left cell and `Right` or `Bottom`. */
  datatype Edge = Edge(p: Pos, d: Dir)

  function Boundaries(cols: int, rows: int): (s: set<Edge>)
    ensures forall e :: e in s <==>
      e.p in AllPos(cols, rows) && (e.d == Right || e.d == Bottom) && Step(e.p, e.d) in AllPos(cols, rows)
  {
    set p, d | p in AllPos(cols, rows) && d in {Right, Bottom} && Step(p, d) in AllPos(cols, rows) :: Edge(p, d)
  }

  /** The interior boundaries whose wall is open. */
  ghost function OpenEdges(g: Grid): set<Edge>
    requires WellFormed(g)
  {
    set e | e in Boundaries(Cols(g), |g|) && !WallAt(g, e.p, e.d)
  }

  /** The name of the boundary on side `d` of `p`. */
  function Canonical(p: Pos, d: Dir): Edge {
    match d
    case Right => Edge(p, Right)
    case Bottom => Edge(p, Bottom)
    case Top => Edge(Step(p, Top), Bottom)
    case Left => Edge(Step(p, Left), Right)
  }

  /** Opening a closed wall adds exactly one open boundary. */
  lemma OpenWallAddsEdge(g: Grid, p: Pos, d: Dir)
    requires WellFormed(g) && InBounds(g, p) && InBounds(g, Step(p, d))
    requires WallAt(g, p, d) && WallAt(g, Step(p, d), Opposite(d))
    ensures Canonical(p, d) !in OpenEdges(g)
    ensures OpenEdges(OpenWall(g, p, d)) == OpenEdges(g) + {Canonical(p, d)}
    ensures |OpenEdges(OpenWall(g, p, d))| == |OpenEdges(g)| + 1
  {
    OpenWallEdges(g, p, d);
    var c := Canonical(p, d);
    assert c !in OpenEdges(g);
  }

  lemma OpenWallEdges(g: Grid, p: Pos, d: Dir)
    requires WellFormed(g) && InBounds(g, p) && InBounds(g, Step(p, d))
    ensures OpenEdges(OpenWall(g, p, d)) == OpenEdges(g) + {Canonical(p, d)}
  {
    var h := OpenWall(g, p, d);
    var c := Canonical(p, d);
    assert c in Boundaries(Cols(g), |g|);
    assert !WallAt(h, c.p, c.d);
    forall e | e in Boundaries(Cols(g), |g|)
      ensures !WallAt(h, e.p, e.d) <==> !WallAt(g, e.p, e.d) || e == c
    {
    }
  }

  /** Opening any wall, closed or not, adds at most the one boundary it names. */
  lemma OpenWallEdgesAtMostOne(g: Grid, p: Pos, d: Dir)
    requires WellFormed(g) && InBounds(g, p) && InBounds(g, Step(p, d))
    ensures OpenEdges(OpenWall(g, p, d)) <= OpenEdges(g) + {Canonical(p, d)}
    ensures |OpenEdges(OpenWall(g, p, d))| <= |OpenEdges(g)| + 1
  {
    var h := OpenWall(g, p, d);
    var c := Canonical(p, d);
    forall e | e in OpenEdges(h)
      ensures e in OpenEdges(g) || e == c
    {
      if WallAt(g, e.p, e.d) {
        assert IsSide(e.p, e.d, p, d);
      }
    }
    SubsetSize(OpenEdges(h), OpenEdges(g) + {c});
  }

  lemma AddFresh(s: set<Pos>, x: Pos)
    requires x !in s
    ensures |s + {x}| == |s| + 1
  {
  }

  /** Grids that agree on every wall have the same open boundaries. */
  lemma SameWallsSameEdges(g: Grid, h: Grid)
    requires WellFormed(g) && WellFormed(h) && SameShape(g, h)
    requires forall q, e | InBounds(g, q) :: WallAt(h, q, e) == WallAt(g, q, e)
    ensures OpenEdges(h) == OpenEdges(g)
  {
  }

  /** Grids that agree on every wall are equally sound. */
  lemma SameWallsSameSound(g: Grid, h: Grid)
    requires WellFormed(g) && WellFormed(h) && SameShape(g, h)
    requires forall q, e | InBounds(g, q) :: WallAt(h, q, e) == WallAt(g, q, e)
    requires Sound(g)
    ensures Sound(h)
  {
    forall r, e | InBounds(h, r) && InBounds(h, Step(r, e))
      ensures WallAt(h, r, e) == WallAt(h, Step(r, e), Opposite(e))
    {
      assert WallAt(g, r, e) == WallAt(g, Step(r, e), Opposite(e));
    }
  }

  /**
   * `h` grew out of `g` by opening walls: same shape and visited marks, no
   * wall closed, and soundness kept.
   */
  ghost predicate Widened(g: Grid, h: Grid)
    requires WellFormed(g)
  {
    && WellFormed(h) && SameShape(g, h) && SameVisits(g, h) && OnlyOpened(g, h)
    && (Consistent(g) ==> Consistent(h))
    && (PerimeterClosed(g) ==> PerimeterClosed(h))
  }

  lemma OpenWallWidens(g0: Grid, g: Grid, p: Pos, d: Dir)
    requires WellFormed(g0) && Widened(g0, g) && InBounds(g, p) && InBounds(g, Step(p, d))
    ensures Widened(g0, OpenWall(g, p, d))
  {
    var h := OpenWall(g, p, d);
    OpenWallOnlyOpens(g, p, d);
    OnlyOpenedTransitive(g0, g, h);
    if Consistent(g) {
      OpenWallKeepsConsistent(g, p, d);
    }
    if PerimeterClosed(g) {
      OpenWallKeepsPerimeter(g, p, d);
    }
  }

  lemma OnlyOpenedTransitive(f: Grid, g: Grid, h: Grid)
    requires WellFormed(f) && WellFormed(g) && WellFormed(h)
    requires OnlyOpened(f, g) && OnlyOpened(g, h)
    ensures OnlyOpened(f, h)
  {
  }

  lemma SubsetSize<T>(a: set<T>, b: set<T>)
    requires a <= b
    ensures |a| <= |b|
  {
    assert b == a + (b - a);
  }

  lemma OpenEdgesGrow(g: Grid, h: Grid)
    requires WellFormed(g) && WellFormed(h) && OnlyOpened(g, h)
    ensures OpenEdges(g) <= OpenEdges(h)
  {
  }

  // ---------------------------------------------------------------------
  // Counting cells
  // ---------------------------------------------------------------------

  function RowPos(y: int, cols: nat): (s: set<Pos>)
    ensures forall p :: p in s <==> p.y == y && 0 <= p.x < cols
  {
    set x | 0 <= x < cols :: Pos(x, y)
  }

  lemma {:induction false} RowPosSize(y: int, cols: nat)
    ensures |RowPos(y, cols)| == cols
  {
    if cols > 0 {
      RowPosSize(y, cols - 1);
      assert RowPos(y, cols) == RowPos(y, cols - 1) + {Pos(cols - 1, y)};
    } else {
      assert RowPos(y, cols) == {};
    }
  }

  /** A `rows` x `cols` grid has `rows * cols` cells. */
  lemma {:induction false} AllPosSize(cols: nat, rows: nat)
    ensures |AllPos(cols, rows)| == cols * rows
  {
    if rows > 0 {
      AllPosSize(cols, rows - 1);
      RowPosSize(rows - 1, cols);
      AllPosLastRow(cols, rows);
      DisjointSize(AllPos(cols, rows - 1), RowPos(rows - 1, cols));
      MulStep(cols, rows);
    } else {
      assert AllPos(cols, rows) == {};
    }
  }

  lemma AllPosLastRow(cols: nat, rows: nat)
    requires rows > 0
    ensures AllPos(cols, rows) == AllPos(cols, rows - 1) + RowPos(rows - 1, cols)
    ensures AllPos(cols, rows - 1) !! RowPos(rows - 1, cols)
  {
  }

  lemma DisjointSize<T>(a: set<T>, b: set<T>)
    requires a !! b
    ensures |a + b| == |a| + |b|
  {
  }

  lemma MulStep(a: int, b: int)
    ensures a * b == a * (b - 1) + a
  {
  }
}

=== FILE: maze_paths.dfy ===
/**
 * Bounded enumeration of simple paths from an entrance to a goal.
 *
 * The game's search is a recursive walk sharing two counters, the number
 * of paths found and the number of calls made. The set of cells on the
 * current path is added to on entry and removed on the way back, so each
 * call sees exactly the cells of the path leading to it; here that set is
 * passed down as a value and the counters are threaded through as a
 * `Tally`.
 */
module MazePaths {
  import opened MazeGrid

  /** Longest path, in steps, the search follows unless the caller asks otherwise. */
  const DefaultMaxDepth: int := 100
  /** Hard ceiling on the number of calls that may explore. */
  const MaxOperations: int := 1000

  datatype Tally = Tally(paths: int, ops: int)

  function Max(a: int, b: int): int {
    if a >= b then a else b
  }

  /** Calls that may still explore before the operation budget is spent. */
  function Fuel(t: Tally): nat {
    if t.ops >= MaxOperations then 0 else MaxOperations - t.ops
  }

  /**
   * One call of the search at `cell`, `depth` steps from the entrance, with
   * `visited` holding the cells of the path that led here. It counts one
   * call, gives up when the call budget, the path limit or the depth is
   * exceeded, counts a path on reaching the goal, and otherwise tries the
   * open neighbours not on the current path.
   */
  function Walk(g: Grid, goal: Pos, limit: int, maxDepth: int,
                cell: Pos, depth: int, visited: set<Pos>, t: Tally): (r: Tally)
    requires WellFormed(g) && InBounds(g, cell)
    ensures r.ops > t.ops
    ensures r.ops <= t.ops + 1 + 4 * (Fuel(t) - Fuel(r))
    ensures t.paths <= r.paths <= Max(t.paths, limit)
    decreases Fuel(t), 0
  {
    var ops := t.ops + 1;
    if ops > MaxOperations || t.paths >= limit || depth > maxDepth then
      Tally(t.paths, ops)
    else if cell == goal then
      Tally(t.paths + 1, ops)
    else
      WalkAll(g, goal, limit, maxDepth, OpenNeighbors(g, cell), 0, depth + 1, visited + {cell}, Tally(t.paths, ops))
  }

  /** The search's loop over the neighbours `next[i..]`, skipping those on the current path. */
  function WalkAll(g: Grid, goal: Pos, limit: int, maxDepth: int,
                   next: seq<Pos>, i: nat, depth: int, visited: set<Pos>, t: Tally): (r: Tally)
    requires WellFormed(g) && i <= |next|
    requires forall j | 0 <= j < |next| :: InBounds(g, next[j])
    ensures r.ops >= t.ops
    ensures r.ops <= t.ops + (|next| - i) + 4 * (Fuel(t) - Fuel(r))
    ensures t.paths <= r.paths <= Max(t.paths, limit)
    decreases Fuel(t), |next| - i
  {
    if i == |next| then
      t
    else
      var t' := if next[i] in visited then t else Walk(g, goal, limit, maxDepth, next[i], depth, visited, t);
      WalkAll(g, goal, limit, maxDepth, next, i + 1, depth, visited, t')
  }

  /**
   * The number of distinct simple paths from `start` to `goal` the search
   * finds, at most `limit`; `maxDepth` bounds the length of the paths it
   * follows and at most `MaxOperations` calls explore. The grid is a value,
   * so the search cannot change it and asking twice gives the same answer.
   */
  function CountDistinctPaths(g: Grid, start: Pos, goal: Pos, limit: int, maxDepth: int): (n: int)
    requires WellFormed(g) && InBounds(g, start)
    ensures 0 <= n <= Max(0, limit)
    ensures start == goal && limit >= 1 && maxDepth >= 0 ==> n == 1
    ensures n > 0 ==> SimplyReaches(g, start, goal, {}, maxDepth + 1)
    ensures HasDistinctPaths(g, start, goal, maxDepth + 1, n)
  {
    SearchFinds(g, start, goal, limit, maxDepth);
    Walk(g, goal, limit, maxDepth, start, 0, {}, Tally(0, 0)).paths
  }

  // ---------------------------------------------------------------------
  // What a counted path is
  // ---------------------------------------------------------------------

  /** A path through open walls that never revisits a cell. */
  ghost predicate SimplePath(g: Grid, path: seq<Pos>)
    requires WellFormed(g)
  {
    IsPath(g, path) && forall i, j | 0 <= i < j < |path| :: path[i] != path[j]
  }

  /**
   * `path` is a simple path from `from` to `goal` of at most `bound` cells
   * that avoids the cells in `avoid`.
   */
  ghost predicate Witness(g: Grid, path: seq<Pos>, from: Pos, goal: Pos, avoid: set<Pos>, bound: int)
    requires WellFormed(g)
  {
    && SimplePath(g, path)
    && path[0] == from && path[|path| - 1] == goal
    && (forall i | 0 <= i < |path| :: path[i] !in avoid)
    && |path| <= bound
  }

  /** Some simple path of at most `bound` cells leads from `from` to `goal` around `avoid`. */
  ghost predicate SimplyReaches(g: Grid, from: Pos, goal: Pos, avoid: set<Pos>, bound: int)
    requires WellFormed(g)
  {
    exists path :: Witness(g, path, from, goal, avoid, bound)
  }

  /** A step from `cell` onto a counted path that avoids `cell` gives a counted path from `cell`. */
  lemma Prepend(g: Grid, cell: Pos, path: seq<Pos>, goal: Pos, avoid: set<Pos>, bound: int)
    requires WellFormed(g) && InBounds(g, cell) && cell !in avoid && |path| >= 1
    requires Witness(g, path, path[0], goal, avoid + {cell}, bound)
    requires path[0] in OpenNeighbors(g, cell)
    ensures Witness(g, [cell] + path, cell, goal, avoid, bound + 1)
  {
    var p := [cell] + path;
    forall i | 0 <= i < |p|
      ensures InBounds(g, p[i]) && p[i] !in avoid
    {
      if i > 0 {
        assert p[i] == path[i - 1];
      }
    }
    forall i | 0 <= i < |p| - 1
      ensures p[i + 1] in OpenNeighbors(g, p[i])
    {
      if i > 0 {
        assert p[i] == path[i - 1] && p[i + 1] == path[i];
      }
    }
    forall i, j | 0 <= i < j < |p|
      ensures p[i] != p[j]
    {
      if i > 0 {
        assert p[i] == path[i - 1] && p[j] == path[j - 1];
      } else {
        assert p[j] == path[j - 1];
      }
    }
  }

  /**
   * The search's count is a count of real paths: a call that raises the
   * path count by k has found k distinct simple paths from its cell to the
   * goal, each avoiding the cells already on the current path and no longer
   * than the depth that remains.
   */
  lemma {:induction false} WalkFinds(g: Grid, goal: Pos, limit: int, maxDepth: int,
                                     cell: Pos, depth: int, visited: set<Pos>, t: Tally)
    returns (paths: set<seq<Pos>>)
    requires WellFormed(g) && InBounds(g, cell) && cell !in visited
    ensures |paths| == Walk(g, goal, limit, maxDepth, cell, depth, visited, t).paths - t.paths
    ensures Witnesses(g, paths, goal, visited, maxDepth - depth + 1)
    ensures forall p | p in paths :: p[0] == cell
    decreases Fuel(t), 0
  {
    var ops := t.ops + 1;
    if ops > MaxOperations || t.paths >= limit || depth > maxDepth {
      paths := {};
    } else if cell == goal {
      paths := {[cell]};
      assert Witness(g, [cell], cell, goal, visited, maxDepth - depth + 1);
    } else {
      var next := OpenNeighbors(g, cell);
      OpenNeighborsOrdered(g, cell);
      var t1 := Tally(t.paths, ops);
      WalkExplores(g, goal, limit, maxDepth, cell, depth, visited, t);
      var rest := WalkAllFinds(g, goal, limit, maxDepth, next, 0, depth + 1, visited + {cell}, t1);
      assert next[0..] == next;
      paths := PrependWitnesses(g, cell, rest, goal, visited, maxDepth - depth);
    }
  }

  /** A call that neither gives up nor stands on the goal is its loop over the open neighbours. */
  lemma WalkExplores(g: Grid, goal: Pos, limit: int, maxDepth: int, cell: Pos, depth: int, visited: set<Pos>, t: Tally)
    requires WellFormed(g) && InBounds(g, cell)
    requires t.ops + 1 <= MaxOperations && t.paths < limit && depth <= maxDepth && cell != goal
    ensures Walk(g, goal, limit, maxDepth, cell, depth, visited, t)
      == WalkAll(g, goal, limit, maxDepth, OpenNeighbors(g, cell), 0, depth + 1, visited + {cell}, Tally(t.paths, t.ops + 1))
  {
  }

  /** Counted paths from the open neighbours of `cell`, each with `cell` put in front. */
  lemma PrependWitnesses(g: Grid, cell: Pos, rest: set<seq<Pos>>, goal: Pos, avoid: set<Pos>, bound: int)
    returns (paths: set<seq<Pos>>)
    requires WellFormed(g) && InBounds(g, cell) && cell !in avoid
    requires Witnesses(g, rest, goal, avoid + {cell}, bound)
    requires forall q | q in rest :: q[0] in OpenNeighbors(g, cell)
    ensures |paths| == |rest|
    ensures Witnesses(g, paths, goal, avoid, bound + 1)
    ensures forall p | p in paths :: p[0] == cell
  {
    paths := PrependAll(cell, rest);
    forall p | p in paths
      ensures |p| >= 1 && Witness(g, p, p[0], goal, avoid, bound + 1)
    {
      var q := p[1..];
      assert p == [cell] + q;
      Prepend(g, cell, q, goal, avoid, bound);
    }
  }

  /** The neighbour loop's paths: those of each neighbour tried, none counted twice. */
  lemma {:induction false} WalkAllFinds(g: Grid, goal: Pos, limit: int, maxDepth: int,
                                        next: seq<Pos>, i: nat, depth: int, visited: set<Pos>, t: Tally)
    returns (paths: set<seq<Pos>>)
    requires WellFormed(g) && i <= |next|
    requires forall j | 0 <= j < |next| :: InBounds(g, next[j])
    requires forall j, k | 0 <= j < k < |next| :: next[j] != next[k]
    ensures |paths| == WalkAll(g, goal, limit, maxDepth, next, i, depth, visited, t).paths - t.paths
    ensures Witnesses(g, paths, goal, visited, maxDepth - depth + 1)
    ensures forall p | p in paths :: p[0] in next[i..]
    decreases Fuel(t), |next| - i
  {
    if i == |next| {
      paths := {};
    } else {
      var t' := if next[i] in visited then t else Walk(g, goal, limit, maxDepth, next[i], depth, visited, t);
      var here: set<seq<Pos>> := {};
      if next[i] !in visited {
        here := WalkFinds(g, goal, limit, maxDepth, next[i], depth, visited, t);
      }
      var later := WalkAllFinds(g, goal, limit, maxDepth, next, i + 1, depth, visited, t');
      assert next[i..] == [next[i]] + next[i + 1..];
      forall p | p in later
        ensures p[0] != next[i]
      {
        var k :| 0 <= k < |next[i + 1..]| && next[i + 1..][k] == p[0];
        assert p[0] == next[i + 1 + k];
      }
      assert here !! later;
      paths := here + later;
    }
  }

  /** Every path in `paths` is a counted path from its own first cell. */
  ghost predicate Witnesses(g: Grid, paths: set<seq<Pos>>, goal: Pos, avoid: set<Pos>, bound: int)
    requires WellFormed(g)
  {
    forall p | p in paths :: |p| >= 1 && Witness(g, p, p[0], goal, avoid, bound)
  }

  /** `cell` put in front of each path of `rest`, giving as many paths as `rest` holds. */
  lemma {:induction false} PrependAll(cell: Pos, rest: set<seq<Pos>>) returns (paths: set<seq<Pos>>)
    ensures |paths| == |rest|
    ensures forall q | q in rest :: [cell] + q in paths
    ensures forall p | p in paths :: |p| >= 1 && p[0] == cell && p[1..] in rest
    decreases |rest|
  {
    if rest == {} {
      paths := {};
    } else {
      var q :| q in rest;
      var sub := PrependAll(cell, rest - {q});
      assert ([cell] + q)[1..] == q;
      paths := sub + {[cell] + q};
    }
  }

  /** At least `n` distinct simple paths of at most `bound` cells lead from `from` to `goal`. */
  ghost predicate HasDistinctPaths(g: Grid, from: Pos, goal: Pos, bound: int, n: int)
    requires WellFormed(g)
  {
    exists paths: set<seq<Pos>> :: |paths| == n && Witnesses(g, paths, goal, {}, bound) &&
      forall p | p in paths :: p[0] == from
  }

  /**
   * The search makes at most `1 + 4 * MaxOperations` calls: once the budget
   * is spent, each call returns at once, and only the at most four
   * neighbours of a call that explored are still called.
   */
  lemma SearchCalls(g: Grid, start: Pos, goal: Pos, limit: int, maxDepth: int)
    requires WellFormed(g) && InBounds(g, start)
    ensures Walk(g, goal, limit, maxDepth, start, 0, {}, Tally(0, 0)).ops <= 1 + 4 * MaxOperations
  {
  }

  /** A search from the entrance that counts `n` paths has found `n` distinct real ones. */
  lemma SearchFinds(g: Grid, start: Pos, goal: Pos, limit: int, maxDepth: int)
    requires WellFormed(g) && InBounds(g, start)
    ensures HasDistinctPaths(g, start, goal, maxDepth + 1, Walk(g, goal, limit, maxDepth, start, 0, {}, Tally(0, 0)).paths)
    ensures Walk(g, goal, limit, maxDepth, start, 0, {}, Tally(0, 0)).paths > 0 ==>
      SimplyReaches(g, start, goal, {}, maxDepth + 1)
  {
    var paths := WalkFinds(g, goal, limit, maxDepth, start, 0, {}, Tally(0, 0));
    if paths != {} {
      var p :| p in paths;
      assert Witness(g, p, start, goal, {}, maxDepth + 1);
    }
  }
}

=== FILE: maze_repair.dfy ===
/**
 * Path-diversity repair and the set-up of one Maze Race round.
 *
 * Repair counts the entrance-to-exit paths and, while there are fewer than
 * wanted, knocks out walls of randomly chosen cells in batches of ten,
 * within a budget of attempts. `rnd(k)` is the k-th integer the game draws
 * (taken modulo the size of the range or list it draws from).
 */
module MazeRepair {
  import opened MazeGrid
  import opened MazePaths
  import MazeCarve

  /** Wall-removal attempts per round between two path counts. */
  const BatchSize: int := 10
  /** Cap on consecutive path counts without a removal round in between. */
  const MaxPathChecks: int := 5

  /** The attempt budget: two per cell, but never more than fifty. */
  function MaxAttempts(rows: int, cols: int): int {
    if rows * cols * 2 < 50 then rows * cols * 2 else 50
  }

  /** The paths repair counts: entrance to exit, at most `minPaths` of them. */
  function PathsFound(g: Grid, minPaths: int): int
    requires WellFormed(g)
  {
    CountDistinctPaths(g, Start, Goal(g), minPaths, DefaultMaxDepth)
  }

  function ClosedToward(g: Grid, p: Pos, d: Dir): (r: seq<Dir>)
    requires WellFormed(g) && InBounds(g, p)
    ensures r == [] || r == [d]
    ensures d in r <==> InBounds(g, Step(p, d)) && WallAt(g, p, d)
  {
    if InBounds(g, Step(p, d)) && WallAt(g, p, d) then [d] else []
  }

  /** The standing walls of `p` that face a cell inside the grid, top, right, bottom, left. */
  function ClosedInteriorDirs(g: Grid, p: Pos): (r: seq<Dir>)
    requires WellFormed(g) && InBounds(g, p)
    ensures forall d :: d in r <==> InBounds(g, Step(p, d)) && WallAt(g, p, d)
  {
    ClosedToward(g, p, Top) + ClosedToward(g, p, Right) + ClosedToward(g, p, Bottom) + ClosedToward(g, p, Left)
  }

  /** The options come in the top, right, bottom, left order, each at most once. */
  lemma ClosedInteriorDirsOrdered(g: Grid, p: Pos)
    requires WellFormed(g) && InBounds(g, p)
    ensures DirSorted(ClosedInteriorDirs(g, p))
  {
    DirsInTurn(ClosedToward(g, p, Top), ClosedToward(g, p, Right), ClosedToward(g, p, Bottom), ClosedToward(g, p, Left));
  }

  /**
   * `v % n`, computed by repeated subtraction. Being recursive, the verifier
   * unfolds it one step at a time instead of reasoning about a remainder by
   * an unknown divisor; `ModIsRemainder` shows the two agree.
   */
  function Mod(v: nat, n: nat): (r: nat)
    requires n > 0
    ensures r < n
    decreases v
  {
    if v < n then v else Mod(v - n, n)
  }

  /** Subtracting the divisor once leaves the remainder unchanged. */
  lemma ModShift(v: nat, n: nat)
    requires n > 0 && v >= n
    ensures (v - n) % n == v % n
  {
    var q := (v - n) / n;
    var r := (v - n) % n;
    assert v - n == q * n + r;
    assert v == (q + 1) * n + r;
    ModUnique(v, n, q + 1, r);
  }

  /** A quotient-remainder split with `0 <= r < n` determines the remainder. */
  lemma ModUnique(v: nat, n: nat, q: int, r: int)
    requires n > 0 && 0 <= r < n && v == q * n + r
    ensures v % n == r
  {
    var q0 := v / n;
    var r0 := v % n;
    var k := q - q0;
    assert k * n == r0 - r by {
      assert v == q0 * n + r0;
      assert q * n - q0 * n == (q - q0) * n;
    }
    if k >= 1 {
      MulAtLeast(k, n);
    } else if k <= -1 {
      assert (-k) * n == -(k * n);
      MulAtLeast(-k, n);
    }
  }

  lemma MulAtLeast(k: int, n: int)
    requires k >= 1 && n > 0
    ensures k * n >= n
  {
    assert k * n == (k - 1) * n + n;
  }

  lemma {:induction false} ModIsRemainder(v: nat, n: nat)
    requires n > 0
    ensures Mod(v, n) == v % n
    decreases v
  {
    if v >= n {
      ModIsRemainder(v - n, n);
      ModShift(v, n);
    }
  }

  /** A grid and the number of integers drawn so far. */
  datatype Trial = Trial(grid: Grid, draws: nat)

  /** The cell an attempt at draw counter `draws` looks at: the row is drawn before the column. */
  function AttemptCell(g: Grid, rnd: nat -> nat, draws: nat): (p: Pos)
    requires WellFormed(g)
    ensures InBounds(g, p)
  {
    Pos(Mod(rnd(draws + 1), Cols(g)), Mod(rnd(draws), |g|))
  }

  /**
   * The grid and draw counter after one removal attempt: a cell with no
   * standing interior wall costs two draws and changes nothing; otherwise a
   * third draw picks the wall to open.
   */
  function Attempt(g: Grid, rnd: nat -> nat, draws: nat): (r: Trial)
    requires WellFormed(g)
    ensures WellFormed(r.grid) && SameShape(g, r.grid)
  {
    var cell := AttemptCell(g, rnd, draws);
    var options := ClosedInteriorDirs(g, cell);
    if |options| == 0 then
      Trial(g, draws + 2)
    else
      var d := options[Mod(rnd(draws + 2), |options|)];
      assert d in options;
      Trial(OpenWall(g, cell, d), draws + 3)
  }

  /** The grid and draw counter after `n` removal attempts in a row. */
  function Attempts(g: Grid, n: nat, rnd: nat -> nat, draws: nat): (r: Trial)
    requires WellFormed(g)
    ensures WellFormed(r.grid) && SameShape(g, r.grid)
    decreases n
  {
    if n == 0 then
      Trial(g, draws)
    else
      var step := Attempt(g, rnd, draws);
      Attempts(step.grid, n - 1, rnd, step.draws)
  }

  /** `ts` is a run of removal attempts: each trial is the attempt made from the one before. */
  ghost predicate AttemptChain(ts: seq<Trial>, rnd: nat -> nat)
  {
    forall k | 0 <= k < |ts| - 1 :: WellFormed(ts[k].grid) && ts[k + 1] == Attempt(ts[k].grid, rnd, ts[k].draws)
  }

  /** A run of attempts extended by the attempt from its last trial is still a run. */
  lemma ChainSnoc(ts: seq<Trial>, rnd: nat -> nat, t: Trial)
    requires |ts| > 0 && AttemptChain(ts, rnd)
    requires WellFormed(ts[|ts| - 1].grid) && t == Attempt(ts[|ts| - 1].grid, rnd, ts[|ts| - 1].draws)
    ensures AttemptChain(ts + [t], rnd)
  {
    var vs := ts + [t];
    forall k | 0 <= k < |vs| - 1
      ensures WellFormed(vs[k].grid) && vs[k + 1] == Attempt(vs[k].grid, rnd, vs[k].draws)
    {
      if k < |ts| - 1 {
        assert vs[k] == ts[k] && vs[k + 1] == ts[k + 1];
      } else {
        assert vs[k] == ts[|ts| - 1] && vs[k + 1] == t;
      }
    }
  }

  /** Two runs joined where the first ends and the second starts make one run. */
  lemma ChainJoin(ts: seq<Trial>, us: seq<Trial>, rnd: nat -> nat)
    requires |ts| > 0 && |us| > 0 && ts[|ts| - 1] == us[0]
    requires AttemptChain(ts, rnd) && AttemptChain(us, rnd)
    ensures AttemptChain(ts + us[1..], rnd)
  {
    var vs := ts + us[1..];
    forall k | 0 <= k < |vs| - 1
      ensures WellFormed(vs[k].grid) && vs[k + 1] == Attempt(vs[k].grid, rnd, vs[k].draws)
    {
      if k >= |ts| - 1 {
        var j := k - (|ts| - 1);
        assert vs[k] == us[j] && vs[k + 1] == us[j + 1];
      }
    }
  }

  /** The `j`-th trial of a run is what `j` attempts from its first trial give. */
  lemma {:induction false} ChainAttempts(ts: seq<Trial>, rnd: nat -> nat, j: nat)
    requires j < |ts| && AttemptChain(ts, rnd) && WellFormed(ts[0].grid)
    ensures ts[j] == Attempts(ts[0].grid, j, rnd, ts[0].draws)
    decreases j
  {
    if j > 0 {
      var us := ts[1..];
      assert AttemptChain(us, rnd) by {
        forall k | 0 <= k < |us| - 1
          ensures WellFormed(us[k].grid) && us[k + 1] == Attempt(us[k].grid, rnd, us[k].draws)
        {
          assert us[k] == ts[k + 1] && us[k + 1] == ts[k + 2];
        }
      }
      assert ts[1] == Attempt(ts[0].grid, rnd, ts[0].draws);
      ChainAttempts(us, rnd, j - 1);
      assert us[j - 1] == ts[j];
    }
  }

  /**
   * What one attempt does: a cell with no standing interior wall costs two
   * draws and changes nothing; otherwise the wall the third draw picks is
   * opened, and in a consistent grid that adds one open boundary.
   */
  lemma AttemptOpens(g: Grid, rnd: nat -> nat, draws: nat)
    requires WellFormed(g)
    ensures var cell := AttemptCell(g, rnd, draws);
      var options := ClosedInteriorDirs(g, cell);
      var r := Attempt(g, rnd, draws);
      && (options == [] ==> r == Trial(g, draws + 2))
      && (options != [] ==>
            var d := options[Mod(rnd(draws + 2), |options|)];
            && r == Trial(OpenWall(g, cell, d), draws + 3)
            && WallAt(g, cell, d) && !WallAt(r.grid, cell, d)
            && (Consistent(g) ==> |OpenEdges(r.grid)| == |OpenEdges(g)| + 1))
  {
    var cell := AttemptCell(g, rnd, draws);
    var options := ClosedInteriorDirs(g, cell);
    if options != [] {
      var d := options[Mod(rnd(draws + 2), |options|)];
      assert d in options;
      if Consistent(g) {
        OpenWallAddsEdge(g, cell, d);
      }
    }
  }

  /**
   * One removal attempt: a random cell, and if it has standing interior
   * walls, one of them chosen at random is opened on both sides.
   */
  method RemovalAttempt(g0: Grid, g: Grid, rnd: nat -> nat, draws: nat) returns (h: Grid, draws': nat)
    requires WellFormed(g0) && Widened(g0, g)
    ensures Trial(h, draws') == Attempt(g, rnd, draws)
    ensures Widened(g0, h) && OnlyOpened(g, h)
    ensures |OpenEdges(h)| <= |OpenEdges(g)| + 1
  {
    var cell := Pos(Mod(rnd(draws + 1), Cols(g)), Mod(rnd(draws), |g|));
    draws' := draws + 2;
    var options := ClosedInteriorDirs(g, cell);
    h := g;
    if |options| > 0 {
      var d := options[Mod(rnd(draws'), |options|)];
      draws' := draws' + 1;
      assert d in options;
      h := OpenWall(g, cell, d);
      OpenWallWidens(g0, g, cell, d);
      OpenWallOnlyOpens(g, cell, d);
      OpenWallEdgesAtMostOne(g, cell, d);
    }
  }

  /**
   * Repair. While the attempt budget lasts, count the paths; stop once there
   * are `minPaths`; otherwise run a batch of up to ten removal attempts. It
   * always terminates, makes at most `MaxAttempts` attempts (the second
   * result), only opens walls and keeps the grid sound, and when it stops
   * with budget to spare the paths it counts have reached `minPaths`. A maze
   * that already has enough paths is returned untouched.
   *
   * `counted` records the grid at every path count, in order. The counts
   * happen after 0, 10, 20, ... attempts; every count but the last found too
   * few paths, so repair stops at the first count that finds enough, and
   * otherwise only when the budget is spent.
   *
   * The counter of path counts without a removal round is reset by every
   * round that continues, so its cap can never be reached: it is kept here
   * as in the game, and the loop invariant shows it is zero at every check.
   */
  method EnsureMultiplePaths(g0: Grid, minPaths: int, rnd: nat -> nat)
    returns (g: Grid, attempts: nat, ghost counted: seq<Grid>, ghost trials: seq<Trial>)
    requires WellFormed(g0)
    ensures Widened(g0, g)
    ensures attempts <= MaxAttempts(|g0|, Cols(g0))
    ensures PathsFound(g, minPaths) >= minPaths || attempts == MaxAttempts(|g0|, Cols(g0))
    ensures PathsFound(g0, minPaths) >= minPaths ==> g == g0 && attempts == 0
    ensures |OpenEdges(g)| <= |OpenEdges(g0)| + attempts
    ensures Connected(g0) ==> Connected(g)
    ensures |counted| >= 1 && counted[0] == g0
    ensures AllWidened(g0, counted)
    ensures FewPaths(counted, |counted| - 1, minPaths)
    ensures BatchSize * (|counted| - 1) < MaxAttempts(|g0|, Cols(g0))
    ensures attempts < MaxAttempts(|g0|, Cols(g0)) ==>
      && counted[|counted| - 1] == g && PathsFound(g, minPaths) >= minPaths
      && attempts == BatchSize * (|counted| - 1)
    ensures attempts == MaxAttempts(|g0|, Cols(g0)) ==>
      && PathsFound(counted[|counted| - 1], minPaths) < minPaths
      && attempts <= BatchSize * |counted|
    ensures |trials| == attempts + 1 && trials[0] == Trial(g0, 0) && trials[attempts].grid == g
    ensures AttemptChain(trials, rnd) && Batches(counted, trials)
  {
    var rows, cols := |g0|, Cols(g0);
    var maxAttempts := MaxAttempts(rows, cols);
    BudgetPositive(rows, cols);
    g, attempts := g0, 0;
    counted := [];
    var pathChecks := 0;
    var draws := 0;
    trials := [Trial(g0, 0)];
    ghost var enough := false;
    while attempts < maxAttempts
      invariant pathChecks == 0
      invariant RepairInv(g0, minPaths, g, attempts, counted)
      invariant RunInv(g0, g, attempts, draws, counted, trials, rnd)
      invariant enough ==> attempts == BatchSize * (|counted| - 1)
      decreases maxAttempts - attempts
    {
      pathChecks := pathChecks + 1;
      if pathChecks > MaxPathChecks {
        break;
      }
      var pathCount := PathsFound(g, minPaths);
      if pathCount >= minPaths {
        StopOnEnough(g0, minPaths, g, attempts, counted);
        RunOnEnough(g0, g, attempts, draws, counted, trials, rnd);
        counted := counted + [g];
        enough := true;
        break;
      }
      pathChecks := 0;
      var h, a, d, steps := RemovalBatch(g0, g, attempts, maxAttempts, rnd, draws);
      RoundKeepsInv(g0, minPaths, g, attempts, counted, h, a);
      RunRound(g0, g, attempts, draws, counted, trials, rnd, h, a, d, steps);
      counted := counted + [g];
      trials := trials + steps[1..];
      g, attempts, draws := h, a, d;
    }
    if !enough {
      StopOnBudget(g0, minPaths, g, attempts, counted);
    }
    StoppedFacts(g0, minPaths, g, attempts, counted);
    if Connected(g0) {
      ConnectedPersists(g0, g);
    }
  }

  /** What holds at the head of the repair loop, `counted` holding the counts made so far. */
  ghost predicate RepairInv(g0: Grid, minPaths: int, g: Grid, attempts: int, counted: seq<Grid>)
    requires WellFormed(g0)
  {
    var budget := MaxAttempts(|g0|, Cols(g0));
    && 0 <= attempts <= budget
    && Widened(g0, g)
    && |OpenEdges(g)| <= |OpenEdges(g0)| + attempts
    && attempts == (if BatchSize * |counted| < budget then BatchSize * |counted| else budget)
    && (|counted| == 0 ==> g == g0)
    && (|counted| > 0 ==> counted[0] == g0 && BatchSize * (|counted| - 1) < budget)
    && AllWidened(g0, counted)
    && FewPaths(counted, |counted|, minPaths)
  }

  /**
   * Every grid counted lies at a batch boundary of the run of attempts:
   * the `i`-th count is made after `10 * i` attempts.
   */
  ghost predicate Batches(counted: seq<Grid>, trials: seq<Trial>)
  {
    forall i | 0 <= i < |counted| :: BatchSize * i < |trials| && counted[i] == trials[BatchSize * i].grid
  }

  /**
   * The run behind the loop state: `trials` starts from the carved maze with
   * nothing drawn, is one attempt per step, and ends at the current grid and
   * draw counter after `attempts` attempts.
   */
  ghost predicate RunInv(g0: Grid, g: Grid, attempts: int, draws: nat, counted: seq<Grid>, trials: seq<Trial>,
                         rnd: nat -> nat)
  {
    && 0 <= attempts && |trials| == attempts + 1
    && trials[0] == Trial(g0, 0) && trials[attempts] == Trial(g, draws)
    && AttemptChain(trials, rnd) && Batches(counted, trials)
  }

  /** A count that finds enough paths is made at the current grid, at a batch boundary. */
  lemma RunOnEnough(g0: Grid, g: Grid, attempts: int, draws: nat, counted: seq<Grid>, trials: seq<Trial>,
                    rnd: nat -> nat)
    requires RunInv(g0, g, attempts, draws, counted, trials, rnd) && attempts == BatchSize * |counted|
    ensures RunInv(g0, g, attempts, draws, counted + [g], trials, rnd)
  {
  }

  /** A count followed by a batch extends the run by the batch's own run. */
  lemma RunRound(g0: Grid, g: Grid, attempts: int, draws: nat, counted: seq<Grid>, trials: seq<Trial>,
                 rnd: nat -> nat, h: Grid, a: int, d: nat, steps: seq<Trial>)
    requires RunInv(g0, g, attempts, draws, counted, trials, rnd) && attempts == BatchSize * |counted|
    requires attempts <= a && |steps| == a - attempts + 1 && AttemptChain(steps, rnd)
    requires steps[0] == Trial(g, draws) && steps[|steps| - 1] == Trial(h, d)
    ensures RunInv(g0, h, a, d, counted + [g], trials + steps[1..], rnd)
  {
    ChainJoin(trials, steps, rnd);
    var ts := trials + steps[1..];
    assert ts[a] == steps[|steps| - 1];
    forall i | 0 <= i < |counted| + 1
      ensures BatchSize * i < |ts| && (counted + [g])[i] == ts[BatchSize * i].grid
    {
      assert ts[BatchSize * i] == trials[BatchSize * i];
    }
  }

  /** What holds when repair stops, `counted` holding every count made. */
  ghost predicate Stopped(g0: Grid, minPaths: int, g: Grid, attempts: int, counted: seq<Grid>)
    requires WellFormed(g0)
  {
    var budget := MaxAttempts(|g0|, Cols(g0));
    && Widened(g0, g) && 0 <= attempts <= budget
    && |OpenEdges(g)| <= |OpenEdges(g0)| + attempts
    && |counted| >= 1 && counted[0] == g0
    && AllWidened(g0, counted)
    && FewPaths(counted, |counted| - 1, minPaths)
    && BatchSize * (|counted| - 1) < budget
    && (attempts < budget ==>
          && counted[|counted| - 1] == g && PathsFound(g, minPaths) >= minPaths
          && attempts == BatchSize * (|counted| - 1))
    && (attempts == budget ==>
          && PathsFound(counted[|counted| - 1], minPaths) < minPaths
          && attempts <= BatchSize * |counted|)
  }

  lemma StopOnEnough(g0: Grid, minPaths: int, g: Grid, attempts: int, counted: seq<Grid>)
    requires WellFormed(g0) && RepairInv(g0, minPaths, g, attempts, counted)
    requires attempts < MaxAttempts(|g0|, Cols(g0)) && PathsFound(g, minPaths) >= minPaths
    ensures Stopped(g0, minPaths, g, attempts, counted + [g])
  {
    WidenedSnoc(g0, counted, g);
    FewPathsGrow(counted, g, minPaths);
  }

  lemma StopOnBudget(g0: Grid, minPaths: int, g: Grid, attempts: int, counted: seq<Grid>)
    requires WellFormed(g0) && RepairInv(g0, minPaths, g, attempts, counted)
    requires attempts >= MaxAttempts(|g0|, Cols(g0)) >= 1
    ensures Stopped(g0, minPaths, g, attempts, counted)
  {
    FewPathsSplit(counted, minPaths);
  }

  /** A count that finds too few paths, then a batch of removals, keeps the loop invariant. */
  lemma RoundKeepsInv(g0: Grid, minPaths: int, g: Grid, attempts: int, counted: seq<Grid>, h: Grid, a: int)
    requires WellFormed(g0) && RepairInv(g0, minPaths, g, attempts, counted)
    requires attempts < MaxAttempts(|g0|, Cols(g0)) && PathsFound(g, minPaths) < minPaths
    requires Widened(g0, h) && |OpenEdges(h)| <= |OpenEdges(g)| + (a - attempts)
    requires a == (if attempts + BatchSize < MaxAttempts(|g0|, Cols(g0)) then attempts + BatchSize
                   else MaxAttempts(|g0|, Cols(g0)))
    ensures RepairInv(g0, minPaths, h, a, counted + [g])
  {
    WidenedSnoc(g0, counted, g);
    FewPathsSnoc(counted, g, minPaths);
  }

  /** The promises of repair read off its stopping state. */
  lemma StoppedFacts(g0: Grid, minPaths: int, g: Grid, attempts: int, counted: seq<Grid>)
    requires WellFormed(g0) && Stopped(g0, minPaths, g, attempts, counted)
    ensures Widened(g0, g)
    ensures attempts <= MaxAttempts(|g0|, Cols(g0))
    ensures PathsFound(g, minPaths) >= minPaths || attempts == MaxAttempts(|g0|, Cols(g0))
    ensures PathsFound(g0, minPaths) >= minPaths ==> g == g0 && attempts == 0
    ensures |OpenEdges(g)| <= |OpenEdges(g0)| + attempts
    ensures |counted| >= 1 && counted[0] == g0
    ensures AllWidened(g0, counted)
    ensures FewPaths(counted, |counted| - 1, minPaths)
    ensures BatchSize * (|counted| - 1) < MaxAttempts(|g0|, Cols(g0))
    ensures attempts < MaxAttempts(|g0|, Cols(g0)) ==>
      && counted[|counted| - 1] == g && PathsFound(g, minPaths) >= minPaths
      && attempts == BatchSize * (|counted| - 1)
    ensures attempts == MaxAttempts(|g0|, Cols(g0)) ==>
      && PathsFound(counted[|counted| - 1], minPaths) < minPaths
      && attempts <= BatchSize * |counted|
  {
    var last := counted[|counted| - 1];
    if |counted| > 1 {
      assert PathsFound(counted[0], minPaths) < minPaths;
    } else {
      assert last == g0;
    }
  }

  ghost predicate AllWidened(g0: Grid, gs: seq<Grid>)
    requires WellFormed(g0)
  {
    forall i | 0 <= i < |gs| :: Widened(g0, gs[i])
  }

  /** Each of the first `n` grids of `gs` is well formed and has fewer than `minPaths` counted paths. */
  ghost predicate FewPaths(gs: seq<Grid>, n: int, minPaths: int)
    requires n <= |gs|
  {
    forall i | 0 <= i < n :: WellFormed(gs[i]) && PathsFound(gs[i], minPaths) < minPaths
  }

  lemma WidenedSnoc(g0: Grid, gs: seq<Grid>, g: Grid)
    requires WellFormed(g0) && AllWidened(g0, gs) && Widened(g0, g)
    ensures AllWidened(g0, gs + [g])
  {
  }

  lemma FewPathsGrow(gs: seq<Grid>, g: Grid, minPaths: int)
    requires FewPaths(gs, |gs|, minPaths)
    ensures FewPaths(gs + [g], |gs|, minPaths)
  {
  }

  lemma FewPathsSnoc(gs: seq<Grid>, g: Grid, minPaths: int)
    requires FewPaths(gs, |gs|, minPaths) && WellFormed(g) && PathsFound(g, minPaths) < minPaths
    ensures FewPaths(gs + [g], |gs| + 1, minPaths)
  {
  }

  lemma FewPathsSplit(gs: seq<Grid>, minPaths: int)
    requires |gs| >= 1 && FewPaths(gs, |gs|, minPaths)
    ensures FewPaths(gs, |gs| - 1, minPaths)
    ensures WellFormed(gs[|gs| - 1]) && PathsFound(gs[|gs| - 1], minPaths) < minPaths
  {
  }

  lemma BudgetPositive(rows: int, cols: int)
    requires rows >= 1 && cols >= 1
    ensures MaxAttempts(rows, cols) >= 1
  {
    assert rows * cols >= 1 by {
      assert rows * cols >= 1 * cols;
    }
  }

  /**
   * One batch: removal attempts until ten are made or the budget is spent,
   * each one as `Attempt` describes: `steps` is the run of trials from `g`
   * to `h`, one attempt apart.
   */
  method RemovalBatch(g0: Grid, g: Grid, attempts: nat, maxAttempts: nat, rnd: nat -> nat, draws: nat)
    returns (h: Grid, attempts': nat, draws': nat, ghost steps: seq<Trial>)
    requires WellFormed(g0) && Widened(g0, g) && attempts <= maxAttempts
    ensures Widened(g0, h) && OnlyOpened(g, h)
    ensures attempts' == (if attempts + BatchSize < maxAttempts then attempts + BatchSize else maxAttempts)
    ensures |OpenEdges(h)| <= |OpenEdges(g)| + (attempts' - attempts)
    ensures |steps| == attempts' - attempts + 1 && AttemptChain(steps, rnd)
    ensures steps[0] == Trial(g, draws) && steps[|steps| - 1] == Trial(h, draws')
  {
    h, attempts', draws' := g, attempts, draws;
    steps := [Trial(g, draws)];
    var i := 0;
    while i < BatchSize && attempts' < maxAttempts
      invariant 0 <= i <= BatchSize
      invariant attempts' == attempts + i <= maxAttempts
      invariant Widened(g0, h) && OnlyOpened(g, h)
      invariant |OpenEdges(h)| <= |OpenEdges(g)| + i
      invariant |steps| == i + 1 && AttemptChain(steps, rnd)
      invariant steps[0] == Trial(g, draws) && steps[i] == Trial(h, draws')
    {
      ghost var prev := h;
      attempts' := attempts' + 1;
      h, draws' := RemovalAttempt(g0, h, rnd, draws');
      ChainSnoc(steps, rnd, Trial(h, draws'));
      steps := steps + [Trial(h, draws')];
      OnlyOpenedTransitive(g, prev, h);
      i := i + 1;
    }
  }

  // ---------------------------------------------------------------------
  // Setting up a round
  // ---------------------------------------------------------------------

  /** Largest cell side, in pixels. */
  const MaxCellSize: int := 40
  const MinCols: int := 7
  const MinRows: int := 6
  /** Paths between entrance and exit the round asks repair for. */
  const WantedPaths: int := 3

  /**
   * The grid size for a maze area of the given pixel size: as many
   * `MaxCellSize` columns and rows as fit, but never fewer than 7 columns
   * and 6 rows.
   */
  function MazeDimensions(areaWidth: int, areaHeight: int): (dims: (int, int))
    ensures dims.0 >= MinCols && dims.1 >= MinRows
    ensures dims.0 == MinCols || dims.0 * MaxCellSize <= areaWidth < (dims.0 + 1) * MaxCellSize
    ensures dims.1 == MinRows || dims.1 * MaxCellSize <= areaHeight < (dims.1 + 1) * MaxCellSize
    ensures areaWidth >= MinCols * MaxCellSize ==> dims.0 * MaxCellSize <= areaWidth < (dims.0 + 1) * MaxCellSize
    ensures areaHeight >= MinRows * MaxCellSize ==> dims.1 * MaxCellSize <= areaHeight < (dims.1 + 1) * MaxCellSize
  {
    var cols := areaWidth / MaxCellSize;
    var rows := areaHeight / MaxCellSize;
    (if cols < MinCols then MinCols else cols, if rows < MinRows then MinRows else rows)
  }

  /**
   * A round's maze: sized for the area, carved, loosened and repaired. It is
   * sound, every cell is reachable from the entrance, and it is at least
   * 7 x 6.
   */
  method BuildMaze(areaWidth: int, areaHeight: int, pick: nat -> nat, coin: nat -> bool, rnd: nat -> nat)
    returns (g: Grid)
    ensures Sound(g) && Connected(g)
    ensures Cols(g) >= MinCols && |g| >= MinRows
    ensures (Cols(g), |g|) == MazeDimensions(areaWidth, areaHeight)
  {
    var dims := MazeDimensions(areaWidth, areaHeight);
    var blank := CreateGrid(dims.0, dims.1);
    var carved := MazeCarve.CarveMaze(blank, pick, coin);
    var attempts;
    ghost var counted, trials;
    g, attempts, counted, trials := EnsureMultiplePaths(carved, WantedPaths, rnd);
  }
}

=== FILE: store.dfy ===
/**
 * The item pool every game draws its winner from.
 *
 * The state is a value and each operation a function from the old state to
 * the new one. Persistence to browser storage and `JSON.parse` are outside
 * the model: loading starts from the already parsed stored value (`Null`
 * when nothing is stored or the text does not parse), and writing back is a
 * no-op.
 */
module ItemStore {
  import opened Text

  datatype Option<T> = None | Some(value: T)

  /**
   * A JavaScript value as `JSON.parse` or an optional-chaining lookup can
   * produce it. A number carries the text `String` gives for it.
   */
  datatype Value =
    | Undefined
    | Null
    | Bool(b: bool)
    | Num(text: string)
    | Str(s: string)
    | Arr(elems: seq<Value>)
    | Obj(fields: map<string, Value>)

  predicate Nullish(v: Value) {
    v.Undefined? || v.Null?
  }

  /**
   * `v?.name` for the two names the store looks up, `items` and
   * `originalItems`: the property of an object that has it, `undefined`
   * otherwise. No string, number, boolean or array has a property of either
   * name, so for these names `undefined` is right for every non-object.
   */
  function Field(v: Value, name: string): (r: Value)
    ensures !(v.Obj? && name in v.fields) ==> r == Undefined
    ensures v.Obj? && name in v.fields ==> r == v.fields[name]
  {
    if v.Obj? && name in v.fields then v.fields[name] else Undefined
  }

  /** `a ?? b`. */
  function Coalesce(a: Value, b: Value): (r: Value)
    ensures Nullish(a) ==> r == b
    ensures !Nullish(a) ==> r == a
  {
    if Nullish(a) then b else a
  }

  /** `Boolean(v)`: false exactly for the falsy values. */
  function Truthy(v: Value): (r: bool)
    ensures Nullish(v) ==> !r
    ensures v.Bool? ==> r == v.b
    ensures v.Str? ==> (r <==> v.s != "")
    ensures v.Arr? || v.Obj? ==> r
  {
    match v
    case Undefined => false
    case Null => false
    case Bool(b) => b
    case Num(text) => text != "0" && text != "-0" && text != "NaN"
    case Str(s) => s != ""
    case Arr(_) => true
    case Obj(_) => true
  }

  /** `String(v)`. An array prints its elements joined by commas, with `null` and `undefined` as empty. */
  function JsString(v: Value): string
    decreases v, 1
  {
    match v
    case Undefined => "undefined"
    case Null => "null"
    case Bool(b) => if b then "true" else "false"
    case Num(text) => text
    case Str(s) => s
    case Arr(elems) => ElementsString(elems)
    case Obj(_) => "[object Object]"
  }

  function ElementsString(vs: seq<Value>): string
    decreases vs, 0
  {
    if |vs| == 0 then
      ""
    else
      var first := if Nullish(vs[0]) then "" else JsString(vs[0]);
      if |vs| == 1 then first else first + "," + ElementsString(vs[1..])
  }

  // ---------------------------------------------------------------------
  // Clean item lists
  // ---------------------------------------------------------------------

  /** An item as the store keeps it: non-empty, no whitespace at either end. */
  predicate Normal(x: string) {
    x != "" && Trimmed(x)
  }

  predicate AllNormal(xs: seq<string>) {
    forall i | 0 <= i < |xs| :: Normal(xs[i])
  }

  /** `xs.map((x) => x.trim()).filter(Boolean)`. */
  function Clean(xs: seq<string>): (r: seq<string>)
    ensures AllNormal(r)
    ensures |r| <= |xs|
    ensures forall y | y in r :: exists i | 0 <= i < |xs| :: y == Trim(xs[i])
  {
    if |xs| == 0 then
      []
    else
      var t := Trim(xs[0]);
      var rest := Clean(xs[1..]);
      assert forall y | y in rest :: exists i | 0 <= i < |xs| :: y == Trim(xs[i]) by {
        forall y | y in rest ensures exists i | 0 <= i < |xs| :: y == Trim(xs[i]) {
          var j :| 0 <= j < |xs[1..]| && y == Trim(xs[1..][j]);
          assert y == Trim(xs[j + 1]);
        }
      }
      if t == "" then rest else [t] + rest
  }

  /** Each entry of `xs`, trimmed. */
  function Trims(xs: seq<string>): (r: seq<string>)
    ensures |r| == |xs|
    ensures forall i | 0 <= i < |xs| :: r[i] == Trim(xs[i])
  {
    seq(|xs|, i requires 0 <= i < |xs| => Trim(xs[i]))
  }

  /** The number of entries of `xs` that do not trim to nothing. */
  function NonBlank(xs: seq<string>): nat {
    if |xs| == 0 then 0 else (if Trim(xs[0]) == "" then 0 else 1) + NonBlank(xs[1..])
  }

  /** Cleaning keeps the trimmed entries in their order. */
  lemma {:induction false} CleanKeepsOrder(xs: seq<string>)
    ensures Subsequence(Clean(xs), Trims(xs))
  {
    if |xs| > 0 {
      CleanKeepsOrder(xs[1..]);
      assert Trims(xs)[1..] == Trims(xs[1..]);
      var rest := Clean(xs[1..]);
      if Trim(xs[0]) != "" {
        assert ([Trim(xs[0])] + rest)[1..] == rest;
      } else if |rest| > 0 {
        assert Normal(rest[0]);
        assert rest[0] != Trims(xs)[0];
      }
    }
  }

  /**
   * `r` is `xs` cleaned: the trimmed entries in their order, each one that
   * does not trim to nothing kept, and no more than those.
   */
  ghost predicate Cleaned(r: seq<string>, xs: seq<string>) {
    && AllNormal(r)
    && Subsequence(r, Trims(xs))
    && |r| == NonBlank(xs)
    && (forall i | 0 <= i < |xs| && Trim(xs[i]) != "" :: Trim(xs[i]) in r)
  }

  lemma CleanCleans(xs: seq<string>)
    ensures Cleaned(Clean(xs), xs)
  {
    CleanKeepsOrder(xs);
    CleanCount(xs);
    forall i | 0 <= i < |xs| && Trim(xs[i]) != "" ensures Trim(xs[i]) in Clean(xs) {
      CleanKeeps(xs, i);
    }
  }

  /**
   * `Cleaned` pins the result down: a clean list taken in order from the
   * trimmed entries, one item per entry that does not trim to nothing, is
   * `Clean(xs)`.
   */
  lemma {:induction false} CleanedUnique(r: seq<string>, xs: seq<string>)
    requires AllNormal(r) && Subsequence(r, Trims(xs)) && |r| == NonBlank(xs)
    ensures r == Clean(xs)
  {
    if |xs| > 0 {
      var t := Trim(xs[0]);
      assert Trims(xs)[1..] == Trims(xs[1..]);
      assert Trims(xs)[0] == t;
      if |r| == 0 {
        CleanedUnique(r, xs[1..]);
      } else if r[0] == t {
        assert Normal(r[0]);
        CleanedUnique(r[1..], xs[1..]);
        assert r == [t] + r[1..];
      } else {
        SubsequenceBound(r, xs[1..]);
        CleanedUnique(r, xs[1..]);
      }
    }
  }

  /** A clean list taken in order from the trimmed entries has at most one item per non-blank entry. */
  lemma {:induction false} SubsequenceBound(r: seq<string>, xs: seq<string>)
    requires AllNormal(r) && Subsequence(r, Trims(xs))
    ensures |r| <= NonBlank(xs)
  {
    if |r| > 0 && |xs| > 0 {
      assert Trims(xs)[1..] == Trims(xs[1..]);
      assert Trims(xs)[0] == Trim(xs[0]);
      if r[0] == Trim(xs[0]) {
        assert Normal(r[0]);
        SubsequenceBound(r[1..], xs[1..]);
      } else {
        SubsequenceBound(r, xs[1..]);
      }
    }
  }

  /** Cleaning keeps exactly as many entries as do not trim to nothing. */
  lemma {:induction false} CleanCount(xs: seq<string>)
    ensures |Clean(xs)| == NonBlank(xs)
  {
    if |xs| > 0 {
      CleanCount(xs[1..]);
    }
  }

  /** Cleaning drops only the entries that trim to nothing. */
  lemma {:induction false} CleanKeeps(xs: seq<string>, i: int)
    requires 0 <= i < |xs| && Trim(xs[i]) != ""
    ensures Trim(xs[i]) in Clean(xs)
  {
    var rest := Clean(xs[1..]);
    if i > 0 {
      assert xs[1..][i - 1] == xs[i];
      CleanKeeps(xs[1..], i - 1);
      assert Clean(xs) == rest || Clean(xs) == [Trim(xs[0])] + rest;
    } else {
      assert Clean(xs) == [Trim(xs[0])] + rest;
    }
  }

  /** Cleaning keeps out the separators the pieces did not have. */
  lemma {:induction false} CleanNoSeparator(xs: seq<string>)
    requires forall i | 0 <= i < |xs| :: NoSeparator(xs[i])
    ensures forall i | 0 <= i < |Clean(xs)| :: NoSeparator(Clean(xs)[i])
  {
    if |xs| > 0 {
      TrimNoSeparator(xs[0]);
      CleanNoSeparator(xs[1..]);
    }
  }

  lemma TrimNoSeparator(s: string)
    requires NoSeparator(s)
    ensures NoSeparator(Trim(s))
  {
    var r := Trim(s);
    TrimStrips(s);
    var j := SkipSpace(s, 0);
    assert forall k | 0 <= k < |r| :: r[k] == s[j + k];
  }

  /** Cleaning a clean list changes nothing. */
  lemma {:induction false} CleanNormal(xs: seq<string>)
    requires AllNormal(xs)
    ensures Clean(xs) == xs
  {
    if |xs| > 0 {
      TrimTrimmed(xs[0]);
      assert AllNormal(xs[1..]) by {
        assert forall i | 0 <= i < |xs| - 1 :: xs[1..][i] == xs[i + 1];
      }
      CleanNormal(xs[1..]);
      assert [xs[0]] + xs[1..] == xs;
    }
  }

  /** Cleaning is idempotent. */
  lemma CleanIdempotent(xs: seq<string>)
    ensures Clean(Clean(xs)) == Clean(xs)
  {
    CleanNormal(Clean(xs));
  }

  function Strings(vs: seq<Value>): (r: seq<string>)
    ensures |r| == |vs|
    ensures forall i | 0 <= i < |vs| :: r[i] == JsString(vs[i])
  {
    seq(|vs|, i requires 0 <= i < |vs| => JsString(vs[i]))
  }

  /** The list of strings as a JavaScript array. */
  function Strs(xs: seq<string>): (r: Value)
    ensures r.Arr? && |r.elems| == |xs|
    ensures forall i | 0 <= i < |xs| :: r.elems[i] == Str(xs[i])
  {
    Arr(seq(|xs|, i requires 0 <= i < |xs| => Str(xs[i])))
  }

  /**
   * `normalizeItems`: nothing for a value that is not an array, otherwise
   * the elements as strings, trimmed, the empty ones dropped.
   */
  function NormalizeItems(v: Value): (r: seq<string>)
    ensures AllNormal(r)
    ensures !v.Arr? ==> r == []
    ensures v.Arr? ==> |r| <= |v.elems|
    ensures v.Arr? ==> Cleaned(r, Strings(v.elems))
  {
    if v.Arr? then
      CleanCleans(Strings(v.elems));
      Clean(Strings(v.elems))
    else
      []
  }

  /** Normalizing an array of clean strings gives back the same strings. */
  lemma NormalizeNormal(xs: seq<string>)
    requires AllNormal(xs)
    ensures NormalizeItems(Strs(xs)) == xs
  {
    assert Strings(Strs(xs).elems) == xs;
    CleanNormal(xs);
  }

  /** Normalizing twice is normalizing once. */
  lemma NormalizeIdempotent(v: Value)
    ensures NormalizeItems(Strs(NormalizeItems(v))) == NormalizeItems(v)
  {
    NormalizeNormal(NormalizeItems(v));
  }

  // ---------------------------------------------------------------------
  // The state
  // ---------------------------------------------------------------------

  /** The pool used when nothing usable is stored or the configured list is empty. */
  const FallbackItems: seq<string> :=
    ["Australia", "Norway", "Egypt", "Mongolia", "Japan", "Peru", "Jamaica", "Latvia", "Madagascar"]

  lemma FallbackNormal()
    ensures AllNormal(FallbackItems) && |FallbackItems| == 9
  {
  }

  /** What a stored blob yields: the current pool and the list it refills from. */
  datatype Stored = Stored(items: seq<string>, originalItems: seq<string>)

  /**
   * `items` is what is left to draw from, `originalItems` what it is refilled
   * from when it runs out.
   */
  datatype State = State(
    items: seq<string>,
    originalItems: seq<string>,
    removeOnSelect: bool,
    nextGame: string,
    shader: string)

  /** The pool can always be refilled, and holds only clean items. */
  predicate Valid(s: State) {
    |s.originalItems| > 0 && AllNormal(s.items) && AllNormal(s.originalItems)
  }

  /** The stored pool: the `items` property of the blob, or the blob itself (a bare list). */
  function StoredItems(parsed: Value): seq<string> {
    NormalizeItems(Coalesce(Field(parsed, "items"), parsed))
  }

  /**
   * The post-parse part of `loadStoredState`. The stored refill list is the
   * `originalItems` property, or the pool when there is none; nothing is
   * loaded when both are empty, and an empty refill list falls back to the
   * pool.
   */
  function LoadStored(parsed: Value): (r: Option<Stored>)
    ensures r.None? <==> StoredItems(parsed) == [] && NormalizeItems(Field(parsed, "originalItems")) == []
    ensures r.Some? ==> r.value.items == StoredItems(parsed)
    ensures r.Some? ==> |r.value.originalItems| > 0
    ensures r.Some? ==> AllNormal(r.value.items) && AllNormal(r.value.originalItems)
    ensures r.Some? && NormalizeItems(Field(parsed, "originalItems")) == [] ==> r.value.originalItems == r.value.items
    ensures r.Some? && NormalizeItems(Field(parsed, "originalItems")) != [] ==>
              r.value.originalItems == NormalizeItems(Field(parsed, "originalItems"))
  {
    var items := StoredItems(parsed);
    var originals := NormalizeItems(Coalesce(Field(parsed, "originalItems"), Strs(items)));
    NormalizeIdempotent(Coalesce(Field(parsed, "items"), parsed));
    assert NormalizeItems(Undefined) == [];
    if |items| == 0 && |originals| == 0 then
      None
    else
      Some(Stored(items, if |originals| > 0 then originals else items))
  }

  /** A stored bare list loads as both the pool and the refill list. */
  lemma LoadBareList(elems: seq<Value>)
    requires NormalizeItems(Arr(elems)) != []
    ensures LoadStored(Arr(elems)) == Some(Stored(NormalizeItems(Arr(elems)), NormalizeItems(Arr(elems))))
  {
  }

  /** The state the store starts in, from what was loaded. */
  function InitialState(stored: Option<Stored>): (s: State)
    ensures stored.None? ==> s.items == FallbackItems && s.originalItems == FallbackItems
    ensures stored.Some? ==> s.items == stored.value.items && s.originalItems == stored.value.originalItems
    ensures !s.removeOnSelect && s.nextGame == "random" && s.shader == "none"
  {
    match stored
    case None => State(FallbackItems, FallbackItems, false, "random", "none")
    case Some(st) => State(st.items, st.originalItems, false, "random", "none")
  }

  /** Whatever was stored, the store starts valid. */
  lemma InitialValid(parsed: Value)
    ensures Valid(InitialState(LoadStored(parsed)))
  {
    FallbackNormal();
  }

  // ---------------------------------------------------------------------
  // Operations
  // ---------------------------------------------------------------------

  /** `parseItems`: the comma- or line-separated entries of `raw`, trimmed, the empty ones dropped. */
  function ParseItems(raw: string): (r: seq<string>)
    ensures AllNormal(r)
    ensures raw == "" ==> r == []
    ensures forall i | 0 <= i < |r| :: NoSeparator(r[i])
    ensures |r| <= SeparatorCount(raw) + 1
    ensures raw != "" ==> Cleaned(r, Split(raw))
  {
    if raw == "" then
      []
    else
      CleanNoSeparator(Split(raw));
      CleanCleans(Split(raw));
      Clean(Split(raw))
  }

  /** Blanks around the entries and empty entries go: `" a ,,b"` gives `["a", "b"]`. */
  lemma ParseExample()
    ensures ParseItems(" a ,,b") == ["a", "b"]
  {
    ExampleSplit();
    ExampleClean();
  }

  lemma ExampleSplit()
    ensures Split(" a ,,b") == [" a ", "", "b"]
  {
    SplitPiece("b");
    assert Split("b") == ["b"];
    assert ",b" == "" + [','] + "b";
    SplitAfterPiece("", ',', "b");
    assert ",,b" == "" + [','] + ",b";
    SplitAfterPiece("", ',', ",b");
    assert " a ,,b" == " a " + [','] + ",b";
    SplitAfterPiece(" a ", ',', ",b");
  }

  lemma ExampleClean()
    ensures Clean([" a ", "", "b"]) == ["a", "b"]
  {
    var pieces := [" a ", "", "b"];
    assert SkipSpace(" a ", 0) == 1;
    assert BackSpace(" a ", 1, 3) == 2;
    assert Trim(" a ") == "a";
    assert Trim("b") == "b";
    assert Clean(pieces[2..]) == ["b"];
    assert Clean(pieces[1..]) == ["b"] by {
      assert pieces[1..][1..] == pieces[2..];
    }
    assert pieces[0..][1..] == pieces[1..];
  }

  /**
   * The configuration form shows the pool one item per line and parses the
   * text back on saving: a clean pool without commas survives unchanged.
   */
  lemma ParseJoin(items: seq<string>)
    requires AllNormal(items)
    requires forall i | 0 <= i < |items| :: NoSeparator(items[i])
    ensures ParseItems(Join(items, '\n')) == items
  {
    if |items| > 0 {
      SplitJoin(items, '\n');
      CleanNormal(items);
      assert Join(items, '\n') != "" by {
        JoinStartsWith(items, '\n');
      }
    }
  }

  lemma JoinStartsWith(parts: seq<string>, sep: char)
    requires |parts| >= 1
    ensures |Join(parts, sep)| >= |parts[0]| && Join(parts, sep)[..|parts[0]|] == parts[0]
  {
  }

  /** Parsing the joined result of a parse gives the same list. */
  lemma ParseIdempotent(raw: string)
    ensures ParseItems(Join(ParseItems(raw), '\n')) == ParseItems(raw)
  {
    ParseJoin(ParseItems(raw));
  }

  /**
   * `setItemsFromText`: the parsed list becomes both the pool and the refill
   * list, or the fallback list when nothing parses. Nothing else changes.
   */
  function SetItemsFromText(s: State, raw: string): (r: State)
    ensures ParseItems(raw) != [] ==> r.items == ParseItems(raw)
    ensures ParseItems(raw) == [] ==> r.items == FallbackItems
    ensures r.originalItems == r.items && |r.items| > 0 && AllNormal(r.items)
    ensures r.removeOnSelect == s.removeOnSelect && r.nextGame == s.nextGame && r.shader == s.shader
  {
    var parsed := ParseItems(raw);
    FallbackNormal();
    var items := if |parsed| > 0 then parsed else FallbackItems;
    s.(items := items, originalItems := items)
  }

  /** `setRemoveOnSelect`: the truth of `value`; nothing else changes. */
  function SetRemoveOnSelect(s: State, value: Value): (r: State)
    ensures r.removeOnSelect <==> Truthy(value)
    ensures r == s.(removeOnSelect := r.removeOnSelect)
  {
    s.(removeOnSelect := Truthy(value))
  }

  /** `setNextGame`: only the next-game choice changes. */
  function SetNextGame(s: State, value: string): (r: State)
    ensures r.nextGame == value
    ensures r == s.(nextGame := r.nextGame)
  {
    s.(nextGame := value)
  }

  /** `setShader`: only the shader choice changes. */
  function SetShader(s: State, value: string): (r: State)
    ensures r.shader == value
    ensures r == s.(shader := r.shader)
  {
    s.(shader := value)
  }

  /** `resetItemsIfEmpty`: an exhausted pool is refilled from the refill list. */
  function ResetItemsIfEmpty(s: State): (r: State)
    ensures |s.items| > 0 ==> r == s
    ensures |s.items| == 0 ==> r == s.(items := s.originalItems)
    ensures Valid(s) ==> Valid(r) && |r.items| > 0
  {
    if |s.items| == 0 then s.(items := s.originalItems) else s
  }

  /** `items.filter((item) => item !== x)`. */
  function Remove(xs: seq<string>, x: string): (r: seq<string>)
    ensures x !in r
    ensures forall y | y != x :: multiset(r)[y] == multiset(xs)[y]
    ensures forall y | y in r :: y in xs
  {
    if |xs| == 0 then
      []
    else
      var rest := Remove(xs[1..], x);
      assert xs == [xs[0]] + xs[1..];
      if xs[0] == x then rest else [xs[0]] + rest
  }

  /** `a` is `b` with some elements left out, the rest in their order. */
  predicate Subsequence(a: seq<string>, b: seq<string>)
    decreases |b|
  {
    if |a| == 0 then true
    else if |b| == 0 then false
    else if a[0] == b[0] then Subsequence(a[1..], b[1..])
    else Subsequence(a, b[1..])
  }

  /** Removal keeps the order of the items it keeps. */
  lemma {:induction false} RemoveKeepsOrder(xs: seq<string>, x: string)
    ensures Subsequence(Remove(xs, x), xs)
  {
    if |xs| > 0 {
      RemoveKeepsOrder(xs[1..], x);
      var rest := Remove(xs[1..], x);
      if xs[0] != x {
        assert ([xs[0]] + rest)[1..] == rest;
      } else if |rest| > 0 {
        assert rest[0] != xs[0];
      }
    }
  }

  lemma RemoveKeepsNormal(xs: seq<string>, x: string)
    ensures AllNormal(xs) ==> AllNormal(Remove(xs, x))
  {
    var r := Remove(xs, x);
    if AllNormal(xs) {
      forall i | 0 <= i < |r| ensures Normal(r[i]) {
        assert r[i] in xs;
      }
    }
  }

  /**
   * `consumeItem`: returns the choice; with removal on, every copy of it
   * leaves the pool and an emptied pool is refilled. With removal off the
   * state is untouched.
   */
  function ConsumeItem(s: State, choice: string): (r: (State, string))
    ensures r.1 == choice
    ensures !s.removeOnSelect ==> r.0 == s
    ensures s.removeOnSelect && Remove(s.items, choice) != [] ==> r.0 == s.(items := Remove(s.items, choice))
    ensures s.removeOnSelect && Remove(s.items, choice) == [] ==> r.0 == s.(items := s.originalItems)
    ensures Valid(s) ==> Valid(r.0)
    ensures Valid(s) && s.removeOnSelect ==> |r.0.items| > 0
  {
    if !s.removeOnSelect then
      (s, choice)
    else
      RemoveKeepsNormal(s.items, choice);
      (ResetItemsIfEmpty(s.(items := Remove(s.items, choice))), choice)
  }

  /** `getItems`: refills an exhausted pool and returns a copy of it. */
  function GetItems(s: State): (r: (State, seq<string>))
    ensures r.1 == r.0.items
    ensures r.0 == ResetItemsIfEmpty(s)
    ensures |s.items| > 0 ==> r.1 == s.items
    ensures Valid(s) ==> Valid(r.0) && |r.1| > 0
  {
    var t := ResetItemsIfEmpty(s);
    (t, t.items)
  }

  /**
   * `getNextItem` with the random index supplied: the item at `k` modulo the
   * pool size after a refill, consumed. `None` stands for `undefined`, which
   * only an empty refill list can produce.
   */
  function GetNextItem(s: State, k: nat): (r: (State, Option<string>))
    ensures Valid(s) ==> r.1.Some? && Valid(r.0) && r.1.value in ResetItemsIfEmpty(s).items
    ensures r.1.Some? <==> |ResetItemsIfEmpty(s).items| > 0
    ensures r.1.Some? ==> r.0 == ConsumeItem(ResetItemsIfEmpty(s), r.1.value).0
    ensures r.1.Some? && !s.removeOnSelect ==> r.0 == ResetItemsIfEmpty(s)
    ensures r.1.Some? && s.removeOnSelect ==> r.1.value !in r.0.items || r.0.items == s.originalItems
  {
    var t := ResetItemsIfEmpty(s);
    if |t.items| == 0 then
      (t, None)
    else
      var choice := t.items[k % |t.items|];
      var c := ConsumeItem(t, choice);
      (c.0, Some(c.1))
  }

  // ---------------------------------------------------------------------
  // The pool is never seen empty
  // ---------------------------------------------------------------------

  datatype Op =
    | SetText(raw: string)
    | SetRemove(value: Value)
    | SetNext(game: string)
    | SetShaderTo(name: string)
    | Reset
    | Consume(choice: string)
    | ReadItems
    | DrawNext(index: nat)

  function Apply(s: State, op: Op): State {
    match op
    case SetText(raw) => SetItemsFromText(s, raw)
    case SetRemove(value) => SetRemoveOnSelect(s, value)
    case SetNext(game) => SetNextGame(s, game)
    case SetShaderTo(name) => SetShader(s, name)
    case Reset => ResetItemsIfEmpty(s)
    case Consume(choice) => ConsumeItem(s, choice).0
    case ReadItems => GetItems(s).0
    case DrawNext(index) => GetNextItem(s, index).0
  }

  function Run(s: State, ops: seq<Op>): State
    decreases |ops|
  {
    if |ops| == 0 then s else Run(Apply(s, ops[0]), ops[1..])
  }

  lemma ApplyValid(s: State, op: Op)
    requires Valid(s)
    ensures Valid(Apply(s, op))
  {
  }

  lemma {:induction false} RunValid(s: State, ops: seq<Op>)
    requires Valid(s)
    ensures Valid(Run(s, ops))
    decreases |ops|
  {
    if |ops| > 0 {
      ApplyValid(s, ops[0]);
      RunValid(Apply(s, ops[0]), ops[1..]);
    }
  }

  /**
   * Whatever was stored and whatever the games and the form do afterwards,
   * `getItems` never hands out an empty pool.
   */
  lemma GetItemsNeverEmpty(parsed: Value, ops: seq<Op>)
    ensures |GetItems(Run(InitialState(LoadStored(parsed)), ops)).1| > 0
  {
    InitialValid(parsed);
    RunValid(InitialState(LoadStored(parsed)), ops);
  }
}

=== FILE: text.dfy ===
/**
 * The string operations the item store relies on: JavaScript's
 * `String.prototype.trim`, splitting on commas and line feeds, and joining
 * with a separator. Strings are sequences of Unicode scalar values rather
 * than UTF-16 code units; every character these operations look at lies in
 * the Basic Multilingual Plane, so the two readings agree on what is trimmed
 * and where the text is split.
 */
module Text {

  /**
   * The characters `trim` removes: the ECMAScript WhiteSpace code points
   * (tab, vertical tab, form feed, the byte order mark and the space
   * separators of Unicode category Zs) and the LineTerminator code points.
   */
  predicate IsSpace(c: char) {
    || c == '\t' || c == '\n' || c == '\U{000B}' || c == '\U{000C}' || c == '\r'
    || c == ' ' || c == '\U{00A0}' || c == '\U{1680}'
    || ('\U{2000}' <= c <= '\U{200A}')
    || c == '\U{2028}' || c == '\U{2029}' || c == '\U{202F}' || c == '\U{205F}'
    || c == '\U{3000}' || c == '\U{FEFF}'
  }

  /** No whitespace at either end. */
  predicate Trimmed(s: string) {
    |s| == 0 || (!IsSpace(s[0]) && !IsSpace(s[|s| - 1]))
  }

  /** The index of the first character at or after `i` that is not whitespace, `|s|` if none. */
  function SkipSpace(s: string, i: nat): (j: nat)
    requires i <= |s|
    ensures i <= j <= |s|
    ensures forall k | i <= k < j :: IsSpace(s[k])
    ensures j == |s| || !IsSpace(s[j])
    decreases |s| - i
  {
    if i < |s| && IsSpace(s[i]) then SkipSpace(s, i + 1) else i
  }

  /**
   * The end of `s` once the whitespace before `j` is dropped, stopping at
   * `lo`: the least `e >= lo` such that `s[e..j]` is all whitespace.
   */
  function BackSpace(s: string, lo: nat, j: nat): (e: nat)
    requires lo <= j <= |s|
    ensures lo <= e <= j
    ensures forall k | e <= k < j :: IsSpace(s[k])
    ensures e == lo || !IsSpace(s[e - 1])
    decreases j
  {
    if j > lo && IsSpace(s[j - 1]) then BackSpace(s, lo, j - 1) else j
  }

  /** `r` is `s` from offset `i` on, with only whitespace around it in `s`. */
  ghost predicate Strips(s: string, i: int, r: string) {
    && 0 <= i <= i + |r| <= |s|
    && r == s[i..i + |r|]
    && (forall k | 0 <= k < i :: IsSpace(s[k]))
    && (forall k | i + |r| <= k < |s| :: IsSpace(s[k]))
  }

  /** `String.prototype.trim`: `s` without whitespace at either end. */
  function Trim(s: string): (r: string)
    ensures Trimmed(r)
    ensures |r| <= |s|
  {
    var i := SkipSpace(s, 0);
    var e := BackSpace(s, i, |s|);
    s[i..e]
  }

  /** What `Trim` removes is whitespace, at the two ends only. */
  lemma TrimStrips(s: string)
    ensures Strips(s, SkipSpace(s, 0), Trim(s))
  {
  }

  /** Trimming leaves an already trimmed string alone. */
  lemma TrimTrimmed(s: string)
    requires Trimmed(s)
    ensures Trim(s) == s
  {
  }

  /** Trimming twice is trimming once. */
  lemma TrimIdempotent(s: string)
    ensures Trim(Trim(s)) == Trim(s)
  {
    TrimTrimmed(Trim(s));
  }

  /** A string is all whitespace exactly when it trims to nothing. */
  lemma TrimEmpty(s: string)
    ensures Trim(s) == [] <==> forall k | 0 <= k < |s| :: IsSpace(s[k])
  {
    TrimStrips(s);
    var i := SkipSpace(s, 0);
    if Trim(s) != [] {
      assert !IsSpace(s[i]);
    }
  }

  // ---------------------------------------------------------------------
  // Splitting and joining
  // ---------------------------------------------------------------------

  /** The characters the item list is split on: comma and line feed. */
  predicate IsSeparator(c: char) {
    c == ',' || c == '\n'
  }

  predicate NoSeparator(s: string) {
    forall k | 0 <= k < |s| :: !IsSeparator(s[k])
  }

  /** The number of separators in `s`. */
  function SeparatorCount(s: string): nat {
    if |s| == 0 then 0 else (if IsSeparator(s[0]) then 1 else 0) + SeparatorCount(s[1..])
  }

  /**
   * `s.split(/[,\n]/)`: the pieces between separators, empty ones included,
   * so there is always one more piece than there are separators and the
   * empty string splits into one empty piece.
   */
  function Split(s: string): (r: seq<string>)
    ensures |r| == SeparatorCount(s) + 1
    ensures forall i | 0 <= i < |r| :: NoSeparator(r[i])
  {
    if |s| == 0 then
      [""]
    else
      var rest := Split(s[1..]);
      if IsSeparator(s[0]) then [""] + rest else [[s[0]] + rest[0]] + rest[1..]
  }

  /** `parts.join(sep)`. */
  function Join(parts: seq<string>, sep: char): (r: string)
    ensures |parts| == 1 ==> r == parts[0]
    ensures |parts| == 0 ==> r == []
  {
    if |parts| == 0 then [] else if |parts| == 1 then parts[0] else parts[0] + [sep] + Join(parts[1..], sep)
  }

  lemma {:induction false} SplitAfterPiece(p: string, sep: char, t: string)
    requires NoSeparator(p) && IsSeparator(sep)
    ensures Split(p + [sep] + t) == [p] + Split(t)
    decreases |p|
  {
    if |p| == 0 {
      assert p + [sep] + t == [sep] + t;
      assert ([sep] + t)[1..] == t;
    } else {
      assert (p + [sep] + t)[1..] == p[1..] + [sep] + t;
      SplitAfterPiece(p[1..], sep, t);
      assert [p[0]] + p[1..] == p;
    }
  }

  lemma {:induction false} SplitPiece(p: string)
    requires NoSeparator(p)
    ensures Split(p) == [p]
    decreases |p|
  {
    if |p| > 0 {
      SplitPiece(p[1..]);
      assert [p[0]] + p[1..] == p;
    }
  }

  /** Splitting undoes joining with a separator, when no piece holds a separator. */
  lemma {:induction false} SplitJoin(parts: seq<string>, sep: char)
    requires |parts| >= 1 && IsSeparator(sep)
    requires forall i | 0 <= i < |parts| :: NoSeparator(parts[i])
    ensures Split(Join(parts, sep)) == parts
    decreases |parts|
  {
    if |parts| == 1 {
      SplitPiece(parts[0]);
    } else {
      SplitAfterPiece(parts[0], sep, Join(parts[1..], sep));
      SplitJoin(parts[1..], sep);
      assert [parts[0]] + parts[1..] == parts;
    }
  }

  /** Joining the pieces back with the separators they were split at gives the text back. */
  function Rejoin(parts: seq<string>, seps: string): string
    requires |parts| == |seps| + 1
  {
    if |seps| == 0 then parts[0] else parts[0] + [seps[0]] + Rejoin(parts[1..], seps[1..])
  }

  /** The separators of `s`, in order. */
  function Separators(s: string): (r: string)
    ensures |r| == SeparatorCount(s)
  {
    if |s| == 0 then [] else (if IsSeparator(s[0]) then [s[0]] else []) + Separators(s[1..])
  }

  /** Splitting loses nothing: the pieces and the separators rebuild the text. */
  lemma {:induction false} SplitRejoin(s: string)
    ensures Rejoin(Split(s), Separators(s)) == s
    decreases |s|
  {
    if |s| > 0 {
      SplitRejoin(s[1..]);
      var rest := Split(s[1..]);
      if !IsSeparator(s[0]) {
        var seps := Separators(s[1..]);
        assert Separators(s) == seps;
        RejoinFirst(rest, seps, s[0]);
        assert [s[0]] + s[1..] == s;
      }
    }
  }

  lemma RejoinFirst(parts: seq<string>, seps: string, c: char)
    requires |parts| == |seps| + 1
    ensures Rejoin([[c] + parts[0]] + parts[1..], seps) == [c] + Rejoin(parts, seps)
  {
    if |seps| > 0 {
      var q := [[c] + parts[0]] + parts[1..];
      assert q[1..] == parts[1..];
    }
  }
}
